=== FILE: README.md ===
# AGIML middleware, modelled in Dafny

The AGIML middleware (`src/middleware/agiml.ts`) sits between a chat client and a
language model. On the way out it wraps the user's text in an AGIML envelope
`<message><user>…</user></message>`, appends the AGIML specification text to the
first system message (or adds a system message carrying it), and tags the request
metadata with `format: 'agiml'`. On the way back it removes the first
`<message><assistant>…</assistant></message>` envelope from the model's answer and
rewrites the `<image attrs>prompt</image>` directives, one after another from the
left, into markdown images. The
image's URL points to the multimedia endpoint. Its query carries the sanitised,
percent-encoded prompt and the directive's attributes.

The model is a set of pure functions over immutable values:

- `JsText`: the JavaScript character classes (`\s`, `\w`, line terminators),
  `trim`, `split` and `join`.
- `Uri`: `encodeURIComponent` and `decodeURIComponent`, with UTF-8 encoding and
  validation. A `URIError` is `None`.
- `JsObject`: a plain JavaScript object as seen through `Object.entries`.
  Array-index keys come first in ascending numeric order, the other keys follow in
  insertion order, and assigning a string to `__proto__` stores nothing.
- `Prompt`: `processPrompt` (lines 98-112).
- `Attributes`: `parseAttributes` (lines 86-96). The global regex
  `(\w+)="([^"]*?)"` becomes an explicit scanner, and a declarative `IsAttrMatch`
  pins down the matches it may return.
- `Markdown`: `generateMarkdownImage` (lines 115-134), with a query parser that
  reads the URL back.
- `Envelope`: the single, non-global, dot-all replace of
  `<message>\s*<assistant>(.*?)<\/assistant>\s*<\/message>` (lines 70-73).
- `Directives`: the global replace of `<image(.*?)>(.*?)<\/image>` (lines 76-83).
  Without the `s` flag, `.` matches no line terminator.
- `Middleware`: `beforeRequest`, `afterResponse` and `processAGIMLResponse`.

Each regex is an explicit scanner paired with a declarative match predicate. For
each single search, the lemmas show that the scanner finds the match the
JavaScript engine picks: the leftmost start, then the shortest lazy captures. For
the two global regexes, they show that the list of matches is the chain of such
searches, each resuming after the previous match. They also show that this list
skips nothing: every match of the pattern starts inside one of the listed matches
(`Attributes.AllMatchesComplete`, `Directives.MatchesComplete`).

Three behaviours of the code are worth stating plainly:

- `Unwrap` is not idempotent on nested envelopes. The replace is not global, so
  only the first envelope goes, and a doubly enveloped text loses one layer per
  pass (`Envelope.UnwrapNested`). Text without an envelope is returned as it is
  (`Envelope.UnwrapUnchanged`).
- A rewritten directive can hold more than one `![`. The prompt filter keeps
  `!` and `[`, so the alt text may contain `![` itself.
  `Directives.SingleDirective` states the exact output.
- `generateMarkdownImage` lets a `URIError` from `decodeURIComponent` escape
  (`Markdown.GenerateMarkdownImage` is `None` exactly then). A prompt that went
  through `processPrompt` always decodes (`Prompt.PromptDecodes`), so on the
  response path that error cannot arise.

## Model

| member | source | states |
|---|---|---|
| JsText.TrimBounds | src/middleware/agiml.ts:101 | the bounds `trim` keeps: whitespace outside, non-whitespace at both inner ends, empty only at the end of an all-whitespace text |
| JsText.TrimNoOuterWhitespace | src/middleware/agiml.ts:101 | `trim` leaves a text with no outer whitespace unchanged |
| JsText.JoinSplit | src/middleware/agiml.ts:109-111 | joining the pieces of `split(sep)` with `sep` gives back the text |
| JsText.SplitJoin | src/middleware/agiml.ts:109-111 | splitting a join of separator-free pieces gives back the pieces |
| JsText.SplitFirst | src/middleware/agiml.ts:91 | `split('=')` of `x=y`, with no `=` in `x`, starts with `x` |
| Uri.EncodeUriComponent | src/middleware/agiml.ts:110 | the encoding is never shorter than the input |
| Uri.EncodeAlphabet | src/middleware/agiml.ts:110 | the encoding holds only `%` and unreserved characters |
| Uri.DecodeUriComponent | src/middleware/agiml.ts:131-133 | a text without `%` decodes to itself; a decoding is never longer than its input |
| Uri.DecodeTruncated | src/middleware/agiml.ts:131-133 | a `%` without two hexadecimal digits after it makes the decode throw |
| Uri.DecodeBadLead | src/middleware/agiml.ts:131-133 | an escape of an octet that cannot lead a UTF-8 sequence (`80`-`BF`, `F8`-`FF`) makes the decode throw, whatever follows |
| Uri.DecodeBadContinuation | src/middleware/agiml.ts:131-133 | a multi-octet lead followed by an escape that is not a continuation octet makes the decode throw, whatever follows |
| Uri.DecodeOverlongTwo | src/middleware/agiml.ts:131-133 | every overlong two-octet form (lead `C0` or `C1`) makes the decode throw, whatever follows |
| Uri.DecodeThreeRejected | src/middleware/agiml.ts:131-133 | every overlong three-octet form and every surrogate U+D800 to U+DFFF makes the decode throw, whatever follows |
| Uri.DecodeFourRejected | src/middleware/agiml.ts:131-133 | every overlong four-octet form and every value above U+10FFFF makes the decode throw, whatever follows |
| Uri.DecodeConcat | src/middleware/agiml.ts:131-133 | after a decodable prefix, the whole decodes exactly when the rest does, to the two decodings joined, so a malformed escape anywhere after it makes the decode throw |
| Uri.DecodePlainPrefix | src/middleware/agiml.ts:131-133 | text without `%` in front changes neither whether the decode throws nor what the rest decodes to |
| Uri.DecodeEncodedChar | src/middleware/agiml.ts:131-133 | the escapes of any reserved character, of one to four UTF-8 octets, decode to that character |
| Uri.DecodeEncode | src/middleware/agiml.ts:126 | `decodeURIComponent(encodeURIComponent(s)) == s` for every string |
| Uri.EncodeConcat | src/middleware/agiml.ts:109-111 | encoding distributes over concatenation |
| Prompt.NewlinesToSpaces | src/middleware/agiml.ts:103 | the text keeps its length |
| Prompt.NewlinesPointwise | src/middleware/agiml.ts:103 | every `\n`, and only `\n`, becomes a space; every other character stays in place |
| Prompt.KeepPromptChars | src/middleware/agiml.ts:105 | only `[a-zA-Z0-9.,!()[\] ]` remains; a text of those characters is kept whole |
| Prompt.KeepCounts | src/middleware/agiml.ts:105 | every allowed character keeps its count and every other character disappears |
| Prompt.KeepOne | src/middleware/agiml.ts:105 | one character survives the filter exactly when it is in the class |
| Prompt.KeepConcat | src/middleware/agiml.ts:105 | the filter distributes over concatenation, so it keeps the allowed characters in input order |
| Prompt.CollapseWhitespace | src/middleware/agiml.ts:107 | no two adjacent spaces; every output character is a space or a non-whitespace character of the input; empty exactly when the input is; a leading whitespace becomes a leading space |
| Prompt.CollapseKeeps | src/middleware/agiml.ts:107 | a non-whitespace character passes through unchanged |
| Prompt.CollapseRun | src/middleware/agiml.ts:107 | a whole whitespace run, up to a non-whitespace character or the end, becomes exactly one space |
| Prompt.CollapseConcat | src/middleware/agiml.ts:107 | the collapse distributes over any split that does not cut a whitespace run, so characters keep their order and runs are neither merged nor lost |
| Prompt.CollapseFixed | src/middleware/agiml.ts:107 | a text whose only whitespace is single spaces is left as it is |
| Prompt.SanitizeShape | src/middleware/agiml.ts:100-107 | the sanitised prompt holds only allowed characters, no double space, and is no longer than the input |
| Prompt.EncodeEach | src/middleware/agiml.ts:110 | each token is replaced by its encoding, position by position |
| Prompt.TokenwiseEncoding | src/middleware/agiml.ts:109-111 | splitting on spaces, encoding each token and joining with `%20` equals encoding the whole text |
| Prompt.ProcessPromptEncodes | src/middleware/agiml.ts:98-112 | `processPrompt(s)` is the encoding of the sanitised text |
| Prompt.PromptDecodes | src/middleware/agiml.ts:98-112 | decoding `processPrompt(s)` always succeeds and yields the trimmed, newline-flattened, filtered, collapsed text |
| Prompt.ProcessPromptAlphabet | src/middleware/agiml.ts:98-112 | the output is letters, digits, `.`, `!`, `(`, `)` and the escapes `%20`, `%2C`, `%5B`, `%5D` only: no space and no line terminator |
| Prompt.CleanPromptFixed | src/middleware/agiml.ts:98-112 | a text that is already clean is its own sanitisation |
| Prompt.LineBreakBecomesSpace | src/middleware/agiml.ts:101-111 | two clean lines `a\nb` give `enc(a)%20enc(b)` |
| Prompt.FilterAfterTrim | src/middleware/agiml.ts:101-105 | a dropped non-space first character leaves the space behind it, because filtering happens after the trim: `# w` gives `%20` + `enc(w)` |
| JsObject.Lookup | src/middleware/agiml.ts:123 | a lookup misses exactly when the key is absent, and a hit is an entry |
| JsObject.NumeralInjective | src/middleware/agiml.ts:123 | distinct array-index keys have distinct numeric values, so their ascending order is total |
| JsObject.Insert | src/middleware/agiml.ts:92 | inserting an array-index key keeps the indexed keys in ascending order |
| JsObject.InsertLookup | src/middleware/agiml.ts:92 | after an index insert the key reads the new value and every other key reads as before |
| JsObject.PutKeys | src/middleware/agiml.ts:92 | a named key already present keeps its position; a new one goes last |
| JsObject.Set | src/middleware/agiml.ts:92 | assignment ignores `__proto__` and touches only the part of the object the key belongs to |
| JsObject.SetValid | src/middleware/agiml.ts:92 | assignment keeps the object well formed: indices ascending, other keys distinct and apart from the indices |
| JsObject.SetGet | src/middleware/agiml.ts:92 | read after write: the assigned key reads the new value (unless it is `__proto__`), every other key reads as before |
| JsObject.SetKeys | src/middleware/agiml.ts:92 | assigning an existing key keeps the key order; a new named key is listed last |
| JsObject.SetEntries | src/middleware/agiml.ts:92 | assignment adds no entry other than the assigned pair |
| Attributes.MatchAt | src/middleware/agiml.ts:88 | the scanner returns only real matches of `(\w+)="([^"]*?)"` at the given start |
| Attributes.MatchAtComplete | src/middleware/agiml.ts:88 | every match is the one the scanner returns at its start |
| Attributes.MatchUnique | src/middleware/agiml.ts:88 | there is at most one match per start: the key is a maximal word run and the value ends at the first quote |
| Attributes.FindAttrLeftmost | src/middleware/agiml.ts:88 | the search returns the leftmost match |
| Attributes.AllMatchesOrdered | src/middleware/agiml.ts:88 | the global matches are in order and do not overlap |
| Attributes.AllMatchesComplete | src/middleware/agiml.ts:88 | the global scan misses no match: every match at or after the scan position starts inside one of the returned matches |
| Attributes.RemoveQuotes | src/middleware/agiml.ts:91 | the result has no `"`, adds nothing, and a quote-free text is kept |
| Attributes.CutAtEquals | src/middleware/agiml.ts:91 | the value cut at its first `=`: a prefix without `=` that is followed by an `=` when it is shorter than the value, and the whole value when it has none |
| Attributes.PairsAt | src/middleware/agiml.ts:90-92 | the i-th pair is the one of the i-th match |
| Attributes.PairOfMatch | src/middleware/agiml.ts:90-92 | `split('=')` and quote removal turn `key="value"` into the key and the value cut at its first `=` |
| Attributes.StoreGet | src/middleware/agiml.ts:90-93 | each key reads the value of its last occurrence; `__proto__` is never stored |
| Attributes.StoreNamedOrder | src/middleware/agiml.ts:90-93 | non-index keys are listed in the order of their first occurrence, so a later duplicate keeps the first position |
| Attributes.StoreEntries | src/middleware/agiml.ts:90-93 | every entry of the object is one of the parsed pairs |
| Attributes.ParseAttributes | src/middleware/agiml.ts:86-95 | the result is a well-formed object |
| Attributes.ParsedEntries | src/middleware/agiml.ts:86-95 | every key is a non-empty run of word characters and no value holds `"` or `=` |
| Attributes.UnquotedIgnored | src/middleware/agiml.ts:86-95 | text without a `"`, such as `color=red`, yields the empty object |
| Markdown.Kept | src/middleware/agiml.ts:124 | the kept entries are exactly those whose key is not the exact string `type` |
| Markdown.GenerateMarkdownImage | src/middleware/agiml.ts:115-134 | the markdown fails exactly when decoding the prompt fails |
| Markdown.QueryStringJoin | src/middleware/agiml.ts:123-128 | the query is `&` and the parameters of the kept entries joined with `&`, or empty |
| Markdown.ParamParses | src/middleware/agiml.ts:126 | one parameter holds no `&` and reads back as its key and value |
| Markdown.QueryRoundTrip | src/middleware/agiml.ts:120-128 | reading the query back gives exactly the kept entries, in entry order, intact |
| Markdown.MarkdownOfProcessedPrompt | src/middleware/agiml.ts:131-133 | for a processed prompt the markdown exists and shows the sanitised text as alt text and caption |
| Envelope.TailAtComplete | src/middleware/agiml.ts:71 | the `</assistant>\s*</message>` tail at a position is unique and found |
| Envelope.CloseFromShortest | src/middleware/agiml.ts:71 | the lazy capture stops at the first position where a tail can match |
| Envelope.TailAtSound | src/middleware/agiml.ts:71 | the tail scanner reports only real `</assistant>\s*</message>` tails |
| Envelope.CloseFromSound | src/middleware/agiml.ts:71 | the lazy capture ends, at or after its start, where a real tail follows |
| Envelope.MatchAtSound | src/middleware/agiml.ts:71 | the scanner returns only real envelope matches at the given start |
| Envelope.OpenDetermined | src/middleware/agiml.ts:71 | the `\s*` between `<message>` and `<assistant>` is the maximal whitespace run |
| Envelope.MatchAtShortest | src/middleware/agiml.ts:71 | at a given start the scanner's capture is the shortest possible |
| Envelope.MatchDetermined | src/middleware/agiml.ts:71 | a match is determined by its start and capture end |
| Envelope.FindMatchSound | src/middleware/agiml.ts:70-73 | the search returns only real envelope matches |
| Envelope.FindMatchPriority | src/middleware/agiml.ts:70-73 | the match found has the leftmost start and, there, the shortest capture |
| Envelope.UnwrapUnchanged | src/middleware/agiml.ts:70-73 | text without an envelope passes through unchanged |
| Envelope.UnwrapFront | src/middleware/agiml.ts:70-73 | a leading envelope, with any whitespace around the inner tags, is replaced by its capture, and the rest of the text is kept |
| Envelope.UnwrapFirst | src/middleware/agiml.ts:70-73 | for the leftmost, shortest envelope anywhere in the text, the text before and after it is kept and the envelope becomes its capture |
| Envelope.UnwrapEnvelop | src/middleware/agiml.ts:70-73 | unwrapping a single envelope whose content holds no `</assistant>\s*</message>` gives that content back, newlines included (`Envelope.UnwrapFirst` covers the general case) |
| Envelope.NoEarlyCloseWithoutTags | src/middleware/agiml.ts:71 | a content without `<` cannot end the capture early |
| Envelope.UnwrapNested | src/middleware/agiml.ts:70-73 | nested envelopes lose one layer per unwrap, so unwrapping is not idempotent |
| Directives.FirstGtComplete | src/middleware/agiml.ts:77 | the attribute scan reaches the first `>` on the line |
| Directives.FirstCloseComplete | src/middleware/agiml.ts:77 | the content scan reaches the first `</image>` on the line |
| Directives.DirectiveAtSound | src/middleware/agiml.ts:77 | the scanner returns only real matches of `<image(.*?)>(.*?)<\/image>` at the given start |
| Directives.DirectiveAtPriority | src/middleware/agiml.ts:77 | at a start that matches at all, the scanner succeeds with the shortest attributes and the shortest content |
| Directives.FindDirectivePriority | src/middleware/agiml.ts:76-77 | the search returns the leftmost match and, at that start, the lazy choice |
| Directives.FindDirectiveSound | src/middleware/agiml.ts:76-77 | the search returns only real matches |
| Directives.Matches | src/middleware/agiml.ts:76-77 | every match of the global replace lies inside the text, with its tags, attributes and content in order, at or after the scan position |
| Directives.MatchesSound | src/middleware/agiml.ts:76-77 | every match of the global replace is a real match |
| Directives.MatchesComplete | src/middleware/agiml.ts:76-77 | the global replace misses no directive: every match at or after the scan position starts inside the span of one of the returned matches |
| Directives.DirectiveOnOneLine | src/middleware/agiml.ts:77 | a match spans no line terminator |
| Directives.MatchesOnOneLine | src/middleware/agiml.ts:76-83 | no rewritten span holds a line terminator, so a directive whose content crosses a line is left alone |
| Directives.RenderShape | src/middleware/agiml.ts:78-82 | a match is replaced by one markdown image that shows the sanitised content and links to the URL of its prompt and attributes |
| Directives.RendersAt | src/middleware/agiml.ts:76-83 | the replacement for the i-th match is the markdown of that match |
| Directives.SpliceSpans | src/middleware/agiml.ts:76-83 | the matches and the text between them tile the input |
| Directives.RewriteSplices | src/middleware/agiml.ts:76-83 | the rewrite keeps the text between matches in order and replaces each match by its markdown |
| Directives.SingleDirective | src/middleware/agiml.ts:76-83 | a text that is one well-formed directive becomes exactly that directive's markdown image |
| Directives.RewriteUnchanged | src/middleware/agiml.ts:76-83 | text without a match is returned unchanged |
| Directives.NoImageTagUnchanged | src/middleware/agiml.ts:76-83 | text without `<image` is returned unchanged |
| Middleware.FirstSystemIndex | src/middleware/agiml.ts:36-38 | the index of the first system message, or none exactly when there is no system message |
| Middleware.BeforeRequest | src/middleware/agiml.ts:31-55 | the user text is wrapped exactly as `<message><user>` + text + `</user></message>`; the first system message gains `\n\n` + spec and no other message changes, or a spec system message goes in front when there is none; afterwards the first system message ends with the spec; the response is kept and the metadata stays well formed |
| Middleware.InjectIntoFirstSystem | src/middleware/agiml.ts:36-42 | only the first system message changes, to its content, a blank line and the spec; count, order, roles and later system messages are kept |
| Middleware.InjectNewSystem | src/middleware/agiml.ts:43-47 | without a system message, a system message with the spec goes first and every old message moves one place right |
| Middleware.SystemMessageCarriesSpec | src/middleware/agiml.ts:36-48 | afterwards a system message exists and the first one ends with the spec |
| Middleware.MetadataTagged | src/middleware/agiml.ts:53 | `format` reads `agiml` whatever it held before; every other key keeps its value |
| Middleware.MetadataKeys | src/middleware/agiml.ts:53 | an existing `format` key keeps its position; otherwise `format` is listed last |
| Middleware.AfterResponse | src/middleware/agiml.ts:57-66 | an absent or empty response leaves the context unchanged; otherwise only the response changes, to its processed form |
| Middleware.PlainResponseUnchanged | src/middleware/agiml.ts:68-84 | a response with neither an envelope nor a directive passes through unchanged |
| Middleware.EnvelopedResponse | src/middleware/agiml.ts:68-84 | an enveloped response whose content holds no `</assistant>\s*</message>` is processed as its content alone |
| Middleware.ProcessedResponseShape | src/middleware/agiml.ts:68-84 | the processed response is the unwrapped text with each match of the global replace (`Directives.Matches`, which skips none) replaced by its markdown and the text between them kept in order |

## Left out

- `src/scripts/util.ts` is not part of this model. It holds file I/O, logging and JSON
  printing.
- The constructor (lines 23-30) merges the settings, logs them and loads the
  specification file. Neither the logging nor the file load is modelled. The
  specification text and `mmapiEndpoint` are plain parameters. The other
  settings are never read by the hooks.
- `async` and `Promise` are dropped; every hook is a pure function.
- In-place mutation of `context.messages` is not modelled. The caller's array is
  changed too, but the model returns a new `Context`. Only the fields the hooks
  use are declared, because the context's type declaration is not part of this
  model.
- `Middleware.Role` has three constructors. The code compares a free-form role
  string with `'system'`, and any role other than `System` behaves the same.
- Metadata values are strings only. The code spreads an arbitrary object.
- Middleware.BeforeRequest: the metadata must be well formed (`JsObject.Valid`),
  which rules out an own `__proto__` key. The spread at line 53 would copy such
  a key, for example from metadata built by `JSON.parse`. The model's objects are
  built by assignment, which never stores `__proto__`, so that metadata is outside
  the model.
- Middleware.MetadataTagged: holds only for well-formed metadata, which has no
  own `__proto__` key, for the reason given for `Middleware.BeforeRequest`.
- Middleware.MetadataKeys: holds only for well-formed metadata, which has no own
  `__proto__` key, for the reason given for `Middleware.BeforeRequest`.
- Characters are Unicode scalar values, not UTF-16 code units. So the `URIError`
  that `encodeURIComponent` raises on a lone surrogate cannot arise. Every
  character class in the regexes treats both halves of a surrogate pair alike,
  so match spans agree.
- `Directives.Render` takes the decoded markdown without an error path, and
  carries no contract of its own: `Directives.RenderShape` states its output.
  `Prompt.PromptDecodes` shows the decode cannot fail for a processed prompt.
- `Envelope.Unwrap`'s own contract bounds only the length of its result. The
  lemmas about it state what it does.
- `Directives.Rewrite` and `Middleware.ProcessResponse` carry no contract of
  their own. `Directives.RewriteSplices`, `Directives.RewriteUnchanged` and the
  `Middleware` lemmas state what they do.
- The concrete examples, such as the hamster prompt, the `# hi` prompt and the
  attribute string with width, height and type, are covered by general lemmas,
  not by literal instances:
  - `Prompt.LineBreakBecomesSpace` covers two clean lines.
  - `Prompt.FilterAfterTrim` covers a filtered first character.
  - `Attributes.StoreGet` and `Attributes.StoreNamedOrder` cover parsed pairs.

=== FILE: attributes.dfy ===
/** `parseAttributes` (src/middleware/agiml.ts:86-96): the global matches of
    `(\w+)="([^"]*?)"` in the attribute text, each cut at `=`, stripped of
    quotes and stored into a fresh object, later matches overwriting earlier
    ones. */
module Attributes {
  import opened Optional
  import opened JsText
  import opened JsObject

  /** One match of `(\w+)="([^"]*?)"`: the key is `s[start..keyEnd]`,
      `s[keyEnd..keyEnd + 2]` is `="`, the value is `s[keyEnd + 2..close]`
      and `s[close]` is the closing quote. */
  datatype AttrMatch = AttrMatch(start: nat, keyEnd: nat, close: nat)

  /** `m` is a match of the attribute pattern that starts at `m.start`. The
      key runs to the `=`, so it is the longest run of word characters from
      its start; the value has no quote, so the lazy `*?` stops at the first
      quote. */
  predicate IsAttrMatch(s: string, m: AttrMatch) {
    && m.start < m.keyEnd
    && m.keyEnd + 2 <= m.close < |s|
    && (forall y :: m.start <= y < m.keyEnd ==> IsWordChar(s[y]))
    && s[m.keyEnd] == '=' && s[m.keyEnd + 1] == '"'
    && (forall y :: m.keyEnd + 2 <= y < m.close ==> s[y] != '"')
    && s[m.close] == '"'
  }

  /** End of the run of word characters that starts at `i`. */
  function WordEnd(s: string, i: nat): (e: nat)
    requires i <= |s|
    ensures i <= e <= |s|
    ensures forall y :: i <= y < e ==> IsWordChar(s[y])
    ensures e < |s| ==> !IsWordChar(s[e])
    decreases |s| - i
  {
    if i < |s| && IsWordChar(s[i]) then WordEnd(s, i + 1) else i
  }

  /** Index of the first `c` at or after `i`. */
  function FindChar(s: string, i: nat, c: char): (r: Option<nat>)
    requires i <= |s|
    ensures r.Some? ==> i <= r.value < |s| && s[r.value] == c
    ensures r.Some? ==> forall y :: i <= y < r.value ==> s[y] != c
    ensures r.None? ==> forall y :: i <= y < |s| ==> s[y] != c
    decreases |s| - i
  {
    if i == |s| then None else if s[i] == c then Some(i) else FindChar(s, i + 1, c)
  }

  /** The match of the attribute pattern starting exactly at `i`, if any. */
  function MatchAt(s: string, i: nat): (r: Option<AttrMatch>)
    ensures r.Some? ==> IsAttrMatch(s, r.value) && r.value.start == i
  {
    if i >= |s| || !IsWordChar(s[i]) then None
    else
      var e := WordEnd(s, i);
      if e + 1 < |s| && s[e] == '=' && s[e + 1] == '"' then
        match FindChar(s, e + 2, '"')
        case None => None
        case Some(q) => Some(AttrMatch(i, e, q))
      else None
  }

  /** A match is determined by where it starts: `MatchAt` finds every one. */
  lemma MatchAtComplete(s: string, m: AttrMatch)
    requires IsAttrMatch(s, m)
    ensures MatchAt(s, m.start) == Some(m)
  {
    var e := WordEnd(s, m.start);
    assert e == m.keyEnd;
    var q := FindChar(s, m.keyEnd + 2, '"');
    assert q == Some(m.close);
  }

  lemma MatchUnique(s: string, m1: AttrMatch, m2: AttrMatch)
    requires IsAttrMatch(s, m1) && IsAttrMatch(s, m2) && m1.start == m2.start
    ensures m1 == m2
  {
    MatchAtComplete(s, m1);
    MatchAtComplete(s, m2);
  }

  /** The regular expression's search from `p`: the match with the leftmost
      start. */
  function FindAttr(s: string, p: nat): (r: Option<AttrMatch>)
    ensures r.Some? ==> IsAttrMatch(s, r.value) && p <= r.value.start
    decreases |s| - p
  {
    if p >= |s| then None
    else if MatchAt(s, p).Some? then MatchAt(s, p)
    else FindAttr(s, p + 1)
  }

  /** No match is skipped: the search finds a match whenever one starts at or
      after `p`, and none that starts later than it. */
  lemma {:induction false} FindAttrLeftmost(s: string, p: nat, m: AttrMatch)
    requires IsAttrMatch(s, m) && p <= m.start
    ensures FindAttr(s, p).Some? && FindAttr(s, p).value.start <= m.start
    decreases |s| - p
  {
    MatchAtComplete(s, m);
    if MatchAt(s, p).None? {
      FindAttrLeftmost(s, p + 1, m);
    }
  }

  /** `attributeString.match(/(\w+)="([^"]*?)"/g) || []`: the successive
      leftmost matches, each search resuming after the previous closing
      quote. */
  function AllMatches(s: string, p: nat): (ms: seq<AttrMatch>)
    ensures forall i :: 0 <= i < |ms| ==> IsAttrMatch(s, ms[i]) && p <= ms[i].start
    decreases |s| - p
  {
    match FindAttr(s, p)
    case None => []
    case Some(m) => [m] + AllMatches(s, m.close + 1)
  }

  /** Position `x` lies within one of the matches `ms`. */
  predicate Covered(ms: seq<AttrMatch>, x: nat) {
    exists i :: 0 <= i < |ms| && ms[i].start <= x <= ms[i].close
  }

  lemma CoveredCons(f: AttrMatch, rest: seq<AttrMatch>, x: nat)
    requires Covered(rest, x) || f.start <= x <= f.close
    ensures Covered([f] + rest, x)
  {
    if !(f.start <= x <= f.close) {
      var j :| 0 <= j < |rest| && rest[j].start <= x <= rest[j].close;
      assert ([f] + rest)[j + 1] == rest[j];
    } else {
      assert ([f] + rest)[0] == f;
    }
  }

  /** The global scan misses no match: every match at or after `p` starts
      inside one of the returned matches. */
  lemma {:induction false} AllMatchesComplete(s: string, p: nat, m: AttrMatch)
    requires IsAttrMatch(s, m) && p <= m.start
    ensures Covered(AllMatches(s, p), m.start)
    decreases |s| - p
  {
    FindAttrLeftmost(s, p, m);
    var f := FindAttr(s, p).value;
    var rest := AllMatches(s, f.close + 1);
    assert AllMatches(s, p) == [f] + rest;
    if f.close < m.start {
      AllMatchesComplete(s, f.close + 1, m);
    }
    CoveredCons(f, rest, m.start);
  }

  /** Matches come in order and do not overlap. */
  lemma {:induction false} AllMatchesOrdered(s: string, p: nat)
    ensures forall i, j :: 0 <= i < j < |AllMatches(s, p)| ==>
              AllMatches(s, p)[i].close < AllMatches(s, p)[j].start
    decreases |s| - p
  {
    match FindAttr(s, p)
    case None =>
    case Some(m) =>
      AllMatchesOrdered(s, m.close + 1);
  }

  /** The text the regular expression matched, as `match()` returns it. */
  function MatchText(s: string, m: AttrMatch): (r: string)
    requires IsAttrMatch(s, m)
    ensures '=' in r
  {
    var r := s[m.start..m.close + 1];
    assert r[m.keyEnd - m.start] == '=';
    r
  }

  /** `.replace(/"/g, '')`. */
  function RemoveQuotes(x: string): (r: string)
    ensures '"' !in r
    ensures '"' !in x ==> r == x
    ensures forall c :: c in r ==> c in x
  {
    if |x| == 0 then ""
    else
      assert x == [x[0]] + x[1..];
      (if x[0] == '"' then "" else [x[0]]) + RemoveQuotes(x[1..])
  }

  /** `const [key, value] = match.split('=').map(s => s.replace(/"/g, ''))`
      followed by `key.trim()`. The split always has a second piece, since
      a match holds an `=`. */
  function PairOf(text: string): (Entry)
    requires '=' in text
  {
    var parts := Split(text, '=');
    assert |parts| > 1 by {
      JoinSplit(text, '=');
    }
    (Trim(RemoveQuotes(parts[0])), RemoveQuotes(parts[1]))
  }

  /** A value cut at its first `=`. */
  function CutAtEquals(x: string): (r: string)
    ensures '=' !in r
    ensures r <= x
    ensures '=' !in x ==> r == x
    ensures |r| < |x| ==> x[|r|] == '='
  {
    if '=' in x then x[..IndexOf(x, '=')] else x
  }

  lemma WordTrimmed(k: string)
    requires IsWordRun(k)
    ensures Trim(k) == k
  {
    TrimNoOuterWhitespace(k);
  }

  /** A non-empty run of word characters. */
  predicate IsWordRun(k: string) {
    |k| > 0 && forall i :: 0 <= i < |k| ==> IsWordChar(k[i])
  }

  /** The key of a match is a word run, its value holds no quote. */
  lemma MatchParts(s: string, m: AttrMatch)
    requires IsAttrMatch(s, m)
    ensures IsWordRun(s[m.start..m.keyEnd])
    ensures '=' !in s[m.start..m.keyEnd] && '"' !in s[m.start..m.keyEnd]
    ensures '"' !in s[m.keyEnd + 2..m.close]
  {
    var key, val := s[m.start..m.keyEnd], s[m.keyEnd + 2..m.close];
    assert forall i :: 0 <= i < |key| ==> key[i] == s[m.start + i];
    assert forall i :: 0 <= i < |val| ==> val[i] == s[m.keyEnd + 2 + i];
  }

  /** The second piece of the split, unquoted, is the value cut at its
      first `=`. */
  lemma {:induction false} ValuePiece(val: string)
    requires '"' !in val
    ensures RemoveQuotes(Split("\"" + val + "\"", '=')[0]) == CutAtEquals(val)
  {
    if '=' in val {
      var i := IndexOf(val, '=');
      assert "\"" + val + "\"" == ("\"" + val[..i]) + "=" + (val[i + 1..] + "\"");
      assert '"' !in val[..i];
      SplitFirst("\"" + val[..i], '=', val[i + 1..] + "\"");
      QuoteFree(val[..i]);
    } else {
      QuotesAround(val);
    }
  }

  /** What a match contributes: its key, and its value up to the first `=`. */
  lemma {:induction false} PairOfMatch(s: string, m: AttrMatch)
    requires IsAttrMatch(s, m)
    ensures PairOf(MatchText(s, m)) == (s[m.start..m.keyEnd], CutAtEquals(s[m.keyEnd + 2..m.close]))
  {
    var key, val := s[m.start..m.keyEnd], s[m.keyEnd + 2..m.close];
    var rest := "\"" + val + "\"";
    assert MatchText(s, m) == key + "=" + rest;
    MatchParts(s, m);
    SplitFirst(key, '=', rest);
    WordTrimmed(key);
    ValuePiece(val);
  }

  lemma QuoteFree(x: string)
    requires '"' !in x
    ensures RemoveQuotes("\"" + x) == x
  {
    assert ("\"" + x)[1..] == x;
  }

  lemma QuotesAround(x: string)
    requires '"' !in x
    ensures RemoveQuotes("\"" + x + "\"") == x
  {
    RemoveQuotesConcat("\"" + x, "\"");
    QuoteFree(x);
  }

  lemma {:induction false} RemoveQuotesConcat(a: string, b: string)
    ensures RemoveQuotes(a + b) == RemoveQuotes(a) + RemoveQuotes(b)
  {
    if |a| > 0 {
      assert (a + b)[1..] == a[1..] + b;
      RemoveQuotesConcat(a[1..], b);
    } else {
      assert a + b == b;
    }
  }

  /** The pairs of the matches, in match order. */
  function Pairs(s: string, ms: seq<AttrMatch>): (ps: seq<Entry>)
    requires forall i :: 0 <= i < |ms| ==> IsAttrMatch(s, ms[i])
    ensures |ps| == |ms|
  {
    if |ms| == 0 then []
    else [PairOf(MatchText(s, ms[0]))] + Pairs(s, ms[1..])
  }

  /** The `i`-th pair is the one of the `i`-th match. */
  lemma {:induction false} PairsAt(s: string, ms: seq<AttrMatch>, i: nat)
    requires forall j :: 0 <= j < |ms| ==> IsAttrMatch(s, ms[j])
    requires i < |ms|
    ensures Pairs(s, ms)[i] == PairOf(MatchText(s, ms[i]))
    decreases i
  {
    if i > 0 {
      PairsAt(s, ms[1..], i - 1);
    }
  }

  /** Storing the pairs one after the other into `{}`. */
  function Store(ps: seq<Entry>): (o: Object)
    ensures Valid(o)
  {
    if |ps| == 0 then Empty
    else
      var before := Store(ps[..|ps| - 1]);
      SetValid(before, ps[|ps| - 1].0, ps[|ps| - 1].1);
      Set(before, ps[|ps| - 1].0, ps[|ps| - 1].1)
  }

  /** `parseAttributes(attributeString)`. */
  function ParseAttributes(s: string): (o: Object)
    ensures Valid(o)
  {
    var ms := AllMatches(s, 0);
    Store(Pairs(s, ms))
  }

  /** The value of the last pair with key `k`: the one that is written last. */
  function LastValue(ps: seq<Entry>, k: string): (r: Option<string>)
    ensures r.Some? ==> (k, r.value) in ps
    ensures r.None? ==> forall i :: 0 <= i < |ps| ==> ps[i].0 != k
  {
    if |ps| == 0 then None
    else if ps[|ps| - 1].0 == k then Some(ps[|ps| - 1].1)
    else LastValue(ps[..|ps| - 1], k)
  }

  /** The last assignment to a key wins; `__proto__` is never stored. */
  lemma {:induction false} StoreGet(ps: seq<Entry>, k: string)
    ensures Get(Store(ps), k) == if k == ProtoKey then None else LastValue(ps, k)
  {
    if |ps| > 0 {
      var init := ps[..|ps| - 1];
      StoreGet(init, k);
      SetGet(Store(init), ps[|ps| - 1].0, ps[|ps| - 1].1, k);
    }
  }

  /** Every stored entry is one of the pairs. */
  lemma {:induction false} StoreEntries(ps: seq<Entry>)
    ensures forall e :: e in Entries(Store(ps)) ==> e in ps
  {
    if |ps| > 0 {
      var init := ps[..|ps| - 1];
      StoreEntries(init);
      SetEntries(Store(init), ps[|ps| - 1].0, ps[|ps| - 1].1);
    }
  }

  /** The keys in the order of their first occurrence. */
  function FirstOccurrences(ks: seq<string>): (r: seq<string>)
    ensures Distinct(r)
    ensures forall k :: k in r <==> k in ks
  {
    if |ks| == 0 then []
    else
      var d := FirstOccurrences(ks[..|ks| - 1]);
      assert ks == ks[..|ks| - 1] + [ks[|ks| - 1]];
      if ks[|ks| - 1] in d then d else d + [ks[|ks| - 1]]
  }

  /** The keys that land among the named (non-index) properties. */
  function NamedKeys(ps: seq<Entry>): (ks: seq<string>)
    ensures forall k :: k in ks ==> !IsArrayIndex(k) && k != ProtoKey
  {
    if |ps| == 0 then []
    else
      var k := ps[|ps| - 1].0;
      NamedKeys(ps[..|ps| - 1]) + (if IsArrayIndex(k) || k == ProtoKey then [] else [k])
  }

  /** A later duplicate overwrites the value but keeps the key where it was
      first stored: the named keys come in the order of first occurrence. */
  lemma {:induction false} StoreNamedOrder(ps: seq<Entry>)
    ensures KeysOf(Store(ps).named) == FirstOccurrences(NamedKeys(ps))
  {
    if |ps| > 0 {
      var init := ps[..|ps| - 1];
      var k, v := ps[|ps| - 1].0, ps[|ps| - 1].1;
      var before := Store(init);
      StoreNamedOrder(init);
      assert Store(ps) == Set(before, k, v);
      if !IsArrayIndex(k) && k != ProtoKey {
        assert Store(ps).named == Put(before.named, k, v);
        PutKeys(before.named, k, v);
        var ks := NamedKeys(init) + [k];
        assert NamedKeys(ps) == ks;
        assert ks[..|ks| - 1] == NamedKeys(init);
        assert FirstOccurrences(ks) == if k in FirstOccurrences(NamedKeys(init))
          then FirstOccurrences(NamedKeys(init)) else FirstOccurrences(NamedKeys(init)) + [k];
      } else {
        assert Store(ps).named == before.named;
        assert NamedKeys(ps) == NamedKeys(init);
      }
    }
  }

  /** Every key of the parsed object is a non-empty run of word characters,
      and no value holds a quote or an `=`. */
  lemma ParsedEntries(s: string)
    ensures forall e :: e in Entries(ParseAttributes(s)) ==>
              IsWordRun(e.0) && '"' !in e.1 && '=' !in e.1
  {
    var ms := AllMatches(s, 0);
    var ps := Pairs(s, ms);
    StoreEntries(ps);
    forall e | e in Entries(ParseAttributes(s))
      ensures IsWordRun(e.0) && '"' !in e.1 && '=' !in e.1
    {
      var n :| 0 <= n < |ps| && ps[n] == e;
      PairsAt(s, ms, n);
      PairOfMatch(s, ms[n]);
      MatchParts(s, ms[n]);
    }
  }

  /** Without a quote nothing matches, so `color=red` contributes nothing. */
  lemma UnquotedIgnored(s: string)
    requires '"' !in s
    ensures ParseAttributes(s) == Empty
  {
  }

}

=== FILE: directives.dfy ===
/** The directive rewrite of `processAGIMLResponse` (src/middleware/agiml.ts:75-83):
    a global replacement of `/<image(.*?)>(.*?)<\/image>/g` in which every
    match becomes the markdown image of its attributes and content. Without
    the `s` flag `.` refuses line terminators, so a directive lies on one
    line. */
module Directives {
  import opened Optional
  import opened JsText
  import opened JsObject
  import opened Attributes
  import opened Prompt
  import opened Markdown

  const ImageOpen: string := "<image"
  const ImageClose: string := "</image>"

  /** A match: `<image` at `start`, the attributes `t[start + 6..gt]`, the
      `>` at `gt`, the content `t[gt + 1..close]`, `</image>` at `close`. */
  datatype Directive = Directive(start: nat, gt: nat, close: nat)

  function End(d: Directive): nat {
    d.close + |ImageClose|
  }

  function AttrText(t: string, d: Directive): string
    requires d.start + |ImageOpen| <= d.gt <= d.close <= |t|
  {
    t[d.start + |ImageOpen|..d.gt]
  }

  function Content(t: string, d: Directive): string
    requires d.gt < d.close <= |t|
  {
    t[d.gt + 1..d.close]
  }

  /** The tags, the attributes and the content of `d` lie inside `t` in
      this order. */
  predicate Spanned(t: string, d: Directive) {
    d.start + |ImageOpen| <= d.gt < d.close && End(d) <= |t|
  }

  /** `d` is a match of the pattern, with any split the pattern allows. */
  predicate IsDirective(t: string, d: Directive) {
    && OccursAt(t, d.start, ImageOpen)
    && d.start + |ImageOpen| <= d.gt < d.close
    && OccursAt(t, d.close, ImageClose)
    && t[d.gt] == '>'
    && SameLine(t, d.start + |ImageOpen|, d.gt)
    && SameLine(t, d.gt + 1, d.close)
  }

  /** The first `>` at or after `i` on the same line. */
  function FirstGt(t: string, i: nat): (r: Option<nat>)
    requires i <= |t|
    ensures r.Some? ==> i <= r.value < |t| && t[r.value] == '>' && SameLine(t, i, r.value)
    decreases |t| - i
  {
    if i == |t| then None
    else if t[i] == '>' then Some(i)
    else if IsLineTerminator(t[i]) then None
    else FirstGt(t, i + 1)
  }

  lemma {:induction false} FirstGtComplete(t: string, i: nat, g: nat)
    requires i <= g < |t| && t[g] == '>' && SameLine(t, i, g)
    ensures FirstGt(t, i).Some? && FirstGt(t, i).value <= g
    decreases |t| - i
  {
    if i < g && t[i] != '>' {
      FirstGtComplete(t, i + 1, g);
    }
  }

  /** The first `</image>` at or after `i` on the same line. */
  function FirstClose(t: string, i: nat): (r: Option<nat>)
    requires i <= |t|
    ensures r.Some? ==> i <= r.value && OccursAt(t, r.value, ImageClose) && SameLine(t, i, r.value)
    decreases |t| - i
  {
    if i == |t| then None
    else if OccursAt(t, i, ImageClose) then Some(i)
    else if IsLineTerminator(t[i]) then None
    else FirstClose(t, i + 1)
  }

  lemma {:induction false} FirstCloseComplete(t: string, i: nat, k: nat)
    requires i <= k && OccursAt(t, k, ImageClose) && SameLine(t, i, k)
    ensures FirstClose(t, i).Some? && FirstClose(t, i).value <= k
    decreases |t| - i
  {
    if i < k && !OccursAt(t, i, ImageClose) {
      FirstCloseComplete(t, i + 1, k);
    }
  }

  /** The match the pattern makes at `i`: the attributes stop at the first
      `>`, the content at the first `</image>`. */
  function DirectiveAt(t: string, i: nat): Option<Directive> {
    if !OccursAt(t, i, ImageOpen) then None
    else
      match FirstGt(t, i + |ImageOpen|)
      case None => None
      case Some(g) =>
        match FirstClose(t, g + 1)
        case None => None
        case Some(k) => Some(Directive(i, g, k))
  }

  /** The scanner returns only real matches, at the start it was given. */
  lemma DirectiveAtSound(t: string, i: nat)
    requires DirectiveAt(t, i).Some?
    ensures IsDirective(t, DirectiveAt(t, i).value) && DirectiveAt(t, i).value.start == i
  {
  }

  /** At a given start, the lazy groups give the shortest attributes and,
      with them, the shortest content: backtracking to a later `>` never
      finds a match the first `>` misses, because both stay on one line. */
  lemma DirectiveAtPriority(t: string, d: Directive)
    requires IsDirective(t, d)
    ensures DirectiveAt(t, d.start).Some?
    ensures DirectiveAt(t, d.start).value.gt <= d.gt
    ensures DirectiveAt(t, d.start).value.close <= d.close
  {
    FirstGtOfDirective(t, d);
    var g := FirstGt(t, d.start + |ImageOpen|).value;
    FirstCloseComplete(t, g + 1, d.close);
    var k := FirstClose(t, g + 1).value;
    DirectiveAtSteps(t, d.start, g, k);
  }

  /** The first `>` after `<image` comes no later than the match's own, and
      the match's content still lies on its line. */
  lemma FirstGtOfDirective(t: string, d: Directive)
    requires IsDirective(t, d)
    ensures OccursAt(t, d.start, ImageOpen)
    ensures FirstGt(t, d.start + |ImageOpen|).Some?
    ensures FirstGt(t, d.start + |ImageOpen|).value <= d.gt
    ensures SameLine(t, FirstGt(t, d.start + |ImageOpen|).value + 1, d.close)
  {
    var i := d.start + |ImageOpen|;
    FirstGtComplete(t, i, d.gt);
    var g := FirstGt(t, i).value;
    if g < d.gt {
      SameLineInside(t, i, d.gt, g + 1, d.gt);
      SameLineJoin(t, g + 1, d.gt, d.close);
    }
  }

  /** `DirectiveAt` once its three steps have succeeded. */
  lemma DirectiveAtSteps(t: string, i: nat, g: nat, k: nat)
    requires OccursAt(t, i, ImageOpen)
    requires FirstGt(t, i + |ImageOpen|) == Some(g)
    requires g + 1 <= |t| && FirstClose(t, g + 1) == Some(k)
    ensures DirectiveAt(t, i) == Some(Directive(i, g, k))
  {
  }

  /** The search from `p`. */
  function FindDirective(t: string, p: nat): (r: Option<Directive>)
    ensures r.Some? ==> Spanned(t, r.value) && p <= r.value.start
    decreases |t| - p
  {
    if p >= |t| then None
    else if DirectiveAt(t, p).Some? then DirectiveAtSound(t, p); DirectiveAt(t, p)
    else FindDirective(t, p + 1)
  }

  /** The search returns only real matches. */
  lemma {:induction false} FindDirectiveSound(t: string, p: nat)
    requires FindDirective(t, p).Some?
    ensures IsDirective(t, FindDirective(t, p).value)
    decreases |t| - p
  {
    if p < |t| && DirectiveAt(t, p).Some? {
      DirectiveAtSound(t, p);
    } else {
      FindDirectiveSound(t, p + 1);
    }
  }

  /** The search picks the leftmost start, then the shortest attributes and
      content. */
  lemma {:induction false} FindDirectivePriority(t: string, p: nat, d: Directive)
    requires IsDirective(t, d) && p <= d.start
    ensures FindDirective(t, p).Some?
    ensures FindDirective(t, p).value.start <= d.start
    ensures FindDirective(t, p).value.start == d.start ==>
              FindDirective(t, p).value.gt <= d.gt && FindDirective(t, p).value.close <= d.close
    decreases |t| - p
  {
    DirectiveAtPriority(t, d);
    if DirectiveAt(t, p).Some? {
      assert FindDirective(t, p) == DirectiveAt(t, p);
    } else {
      assert p < d.start;
      FindDirectivePriority(t, p + 1, d);
      assert FindDirective(t, p) == FindDirective(t, p + 1);
    }
  }

  /** The matches of the global replacement, each search resuming after the
      previous `</image>`. */
  function Matches(t: string, p: nat): (ds: seq<Directive>)
    ensures forall i :: 0 <= i < |ds| ==> Spanned(t, ds[i]) && p <= ds[i].start
    decreases |t| - p
  {
    match FindDirective(t, p)
    case None => []
    case Some(d) => [d] + Matches(t, End(d))
  }

  /** The global replace misses no directive: every match at or after `p`
      starts inside the span of one of the returned matches. */
  lemma {:induction false} MatchesComplete(t: string, p: nat, d: Directive)
    requires IsDirective(t, d) && p <= d.start
    ensures exists i :: 0 <= i < |Matches(t, p)| && Matches(t, p)[i].start <= d.start < End(Matches(t, p)[i])
    decreases |t| - p
  {
    FindDirectivePriority(t, p, d);
    var f := FindDirective(t, p).value;
    var ds := Matches(t, p);
    assert ds == [f] + Matches(t, End(f));
    if d.start < End(f) {
      assert ds[0].start <= d.start < End(ds[0]);
    } else {
      MatchesComplete(t, End(f), d);
      var j :| 0 <= j < |Matches(t, End(f))|
             && Matches(t, End(f))[j].start <= d.start < End(Matches(t, End(f))[j]);
      assert ds[j + 1] == Matches(t, End(f))[j];
    }
  }

  /** Every match of the global replacement is a real match. */
  lemma {:induction false} MatchesSound(t: string, p: nat, i: nat)
    requires i < |Matches(t, p)|
    ensures IsDirective(t, Matches(t, p)[i])
    decreases |t| - p
  {
    var d := FindDirective(t, p).value;
    if i == 0 {
      FindDirectiveSound(t, p);
    } else {
      MatchesSound(t, End(d), i - 1);
    }
  }

  /** A directive lies on one line: neither the tags, the attributes nor
      the content holds a line terminator. */
  lemma DirectiveOnOneLine(t: string, d: Directive)
    requires IsDirective(t, d)
    ensures SameLine(t, d.start, End(d))
  {
    forall y | d.start <= y < End(d)
      ensures !IsLineTerminator(t[y])
    {
      if y < d.start + |ImageOpen| {
        assert t[y] == ImageOpen[y - d.start] by {
          assert t[d.start..d.start + |ImageOpen|] == ImageOpen;
        }
      } else if y >= d.close {
        assert t[y] == ImageClose[y - d.close] by {
          assert t[d.close..d.close + |ImageClose|] == ImageClose;
        }
      }
    }
  }

  /** So a directive whose content crosses a line is never rewritten: every
      rewritten span lies on one line. */
  lemma MatchesOnOneLine(t: string, p: nat)
    ensures forall i :: 0 <= i < |Matches(t, p)| ==> SameLine(t, Matches(t, p)[i].start, End(Matches(t, p)[i]))
  {
    var ds := Matches(t, p);
    forall i | 0 <= i < |ds|
      ensures SameLine(t, ds[i].start, End(ds[i]))
    {
      MatchesSound(t, p, i);
      DirectiveOnOneLine(t, ds[i]);
    }
  }

  /** The markdown that replaces one directive: `processPrompt` of the
      content and `parseAttributes` of the attribute text, put through
      `generateMarkdownImage`. The decoded prompt in alt text and caption is
      the sanitised content. */
  function Render(endpoint: string, t: string, d: Directive): string
    requires Spanned(t, d)
  {
    var attrs := ParseAttributes(AttrText(t, d));
    MarkdownOfProcessedPrompt(endpoint, Content(t, d), attrs);
    GenerateMarkdownImage(endpoint, ProcessPrompt(Content(t, d)), attrs).value
  }

  /** The markdown never fails: its alt text and caption are the sanitised
      content and its URL carries the processed prompt and the parsed
      attributes. */
  lemma RenderShape(endpoint: string, t: string, d: Directive)
    requires Spanned(t, d)
    ensures Render(endpoint, t, d)
         == "![" + Sanitize(Content(t, d)) + "]("
            + ImageUrl(endpoint, ProcessPrompt(Content(t, d)), ParseAttributes(AttrText(t, d)))
            + ")\n*" + Sanitize(Content(t, d)) + "*"
  {
    MarkdownOfProcessedPrompt(endpoint, Content(t, d), ParseAttributes(AttrText(t, d)));
  }

  /** `response.replace(/<image(.*?)>(.*?)<\/image>/g, …)` from `p` on. */
  function Rewrite(endpoint: string, t: string, p: nat): string
    requires p <= |t|
    decreases |t| - p
  {
    match FindDirective(t, p)
    case None => t[p..]
    case Some(d) => t[p..d.start] + Render(endpoint, t, d) + Rewrite(endpoint, t, End(d))
  }

  /** Matches in order, each starting after the previous one ends. */
  predicate Chained(t: string, p: nat, ds: seq<Directive>)
    decreases |ds|
  {
    |ds| == 0 || (p <= ds[0].start < End(ds[0]) <= |t| && Chained(t, End(ds[0]), ds[1..]))
  }

  lemma {:induction false} MatchesChained(t: string, p: nat)
    requires p <= |t|
    ensures Chained(t, p, Matches(t, p))
    decreases |t| - p
  {
    match FindDirective(t, p)
    case None =>
    case Some(d) =>
      MatchesChained(t, End(d));
      assert Matches(t, p)[1..] == Matches(t, End(d));
  }

  /** The text from `p` with the span of each match replaced by the piece
      given for it. */
  function Splice(t: string, p: nat, ds: seq<Directive>, pieces: seq<string>): string
    requires p <= |t| && Chained(t, p, ds) && |pieces| == |ds|
    decreases |ds|
  {
    if |ds| == 0 then t[p..]
    else t[p..ds[0].start] + pieces[0] + Splice(t, End(ds[0]), ds[1..], pieces[1..])
  }

  /** The original text of each span. */
  function Spans(t: string, ds: seq<Directive>): (r: seq<string>)
    requires forall i :: 0 <= i < |ds| ==> ds[i].start <= End(ds[i]) <= |t|
    ensures |r| == |ds|
    ensures forall i :: 0 <= i < |ds| ==> r[i] == t[ds[i].start..End(ds[i])]
  {
    if |ds| == 0 then [] else [t[ds[0].start..End(ds[0])]] + Spans(t, ds[1..])
  }

  /** The markdown of each match. */
  function Renders(endpoint: string, t: string, ds: seq<Directive>): (r: seq<string>)
    requires forall i :: 0 <= i < |ds| ==> Spanned(t, ds[i])
    ensures |r| == |ds|
  {
    if |ds| == 0 then [] else [Render(endpoint, t, ds[0])] + Renders(endpoint, t, ds[1..])
  }

  /** The `i`-th piece is the markdown of the `i`-th match. */
  lemma {:induction false} RendersAt(endpoint: string, t: string, ds: seq<Directive>, i: nat)
    requires forall j :: 0 <= j < |ds| ==> Spanned(t, ds[j])
    requires i < |ds|
    ensures Renders(endpoint, t, ds)[i] == Render(endpoint, t, ds[i])
    decreases i
  {
    if i > 0 {
      RendersAt(endpoint, t, ds[1..], i - 1);
    }
  }

  /** Splicing each span back in gives the text itself: the matches and the
      text between them tile the input. */
  lemma {:induction false} SpliceSpans(t: string, p: nat, ds: seq<Directive>)
    requires p <= |t| && Chained(t, p, ds)
    requires forall i :: 0 <= i < |ds| ==> ds[i].start <= End(ds[i]) <= |t|
    ensures Splice(t, p, ds, Spans(t, ds)) == t[p..]
    decreases |ds|
  {
    if |ds| > 0 {
      var d := ds[0];
      SpliceSpans(t, End(d), ds[1..]);
      assert Spans(t, ds)[1..] == Spans(t, ds[1..]);
      assert t[p..] == t[p..d.start] + t[d.start..End(d)] + t[End(d)..];
    }
  }

  /** The rewrite keeps the text between matches, in order, and replaces
      each match by its markdown. */
  lemma {:induction false} RewriteSplices(endpoint: string, t: string, p: nat)
    requires p <= |t|
    ensures Chained(t, p, Matches(t, p))
    ensures Rewrite(endpoint, t, p) == Splice(t, p, Matches(t, p), Renders(endpoint, t, Matches(t, p)))
    decreases |t| - p
  {
    MatchesChained(t, p);
    match FindDirective(t, p)
    case None =>
    case Some(d) =>
      RewriteSplices(endpoint, t, End(d));
      var ds := Matches(t, p);
      assert ds[1..] == Matches(t, End(d));
      assert Renders(endpoint, t, ds)[1..] == Renders(endpoint, t, ds[1..]);
  }

  /** The text of a single directive: `<image`, attributes, `>`, content,
      `</image>`. */
  function Tagged(attrs: string, content: string): string {
    ImageOpen + attrs + ">" + content + ImageClose
  }

  /** The attribute text holds no `>`, neither part a line terminator, and
      the content no `</image>`. */
  predicate WellFormed(attrs: string, content: string) {
    && (forall y :: 0 <= y < |attrs| ==> attrs[y] != '>' && !IsLineTerminator(attrs[y]))
    && (forall y :: 0 <= y < |content| ==> !IsLineTerminator(content[y]))
    && (forall k :: 0 <= k < |content| ==> !OccursAt(content + ImageClose, k, ImageClose))
  }

  lemma TaggedDirective(attrs: string, content: string)
    requires WellFormed(attrs, content)
    ensures var t := Tagged(attrs, content);
            var d := Directive(0, |ImageOpen| + |attrs|, |ImageOpen| + |attrs| + 1 + |content|);
            IsDirective(t, d) && End(d) == |t| && AttrText(t, d) == attrs && Content(t, d) == content
  {
    var t := Tagged(attrs, content);
    var g := |ImageOpen| + |attrs|;
    var k := g + 1 + |content|;
    assert t[..|ImageOpen|] == ImageOpen;
    assert t[g] == '>';
    assert forall y :: |ImageOpen| <= y < g ==> t[y] == attrs[y - |ImageOpen|];
    assert forall y :: g + 1 <= y < k ==> t[y] == content[y - g - 1];
    assert t[k..] == ImageClose;
    assert t[|ImageOpen|..g] == attrs;
    assert t[g + 1..k] == content;
  }

  /** No `>` inside the attributes of a well-formed tagged text. */
  lemma TaggedNoGt(attrs: string, content: string, y: nat)
    requires WellFormed(attrs, content)
    requires |ImageOpen| <= y < |ImageOpen| + |attrs|
    ensures Tagged(attrs, content)[y] != '>'
  {
    assert Tagged(attrs, content)[y] == attrs[y - |ImageOpen|];
  }

  /** No `</image>` starts inside the content of a well-formed tagged text. */
  lemma TaggedNoClose(attrs: string, content: string, j: nat)
    requires WellFormed(attrs, content)
    requires |ImageOpen| + |attrs| + 1 <= j < |ImageOpen| + |attrs| + 1 + |content|
    ensures !OccursAt(Tagged(attrs, content), j, ImageClose)
  {
    var pre := ImageOpen + attrs + ">";
    ConcatAssoc(ImageOpen + attrs + ">", content, ImageClose);
    AbsentInSuffix(pre, content + ImageClose, j - |pre|, ImageClose);
  }

  /** The scan finds the whole tagged text as its first match. */
  lemma TaggedFound(attrs: string, content: string)
    requires WellFormed(attrs, content)
    ensures FindDirective(Tagged(attrs, content), 0)
         == Some(Directive(0, |ImageOpen| + |attrs|, |ImageOpen| + |attrs| + 1 + |content|))
  {
    var t := Tagged(attrs, content);
    var g := |ImageOpen| + |attrs|;
    var k := g + 1 + |content|;
    var d := Directive(0, g, k);
    TaggedDirective(attrs, content);
    DirectiveAtPriority(t, d);
    var e := DirectiveAt(t, 0).value;
    DirectiveAtSound(t, 0);
    if e.gt < g {
      TaggedNoGt(attrs, content, e.gt);
    }
    if e.close < k {
      TaggedNoClose(attrs, content, e.close);
    }
    assert e == d;
  }

  /** A response that is one well-formed directive becomes exactly one
      markdown image of its attributes and content. */
  lemma SingleDirective(endpoint: string, attrs: string, content: string)
    requires WellFormed(attrs, content)
    ensures Rewrite(endpoint, Tagged(attrs, content), 0)
         == "![" + Sanitize(content) + "]("
            + ImageUrl(endpoint, ProcessPrompt(content), ParseAttributes(attrs))
            + ")\n*" + Sanitize(content) + "*"
  {
    var t := Tagged(attrs, content);
    var d := Directive(0, |ImageOpen| + |attrs|, |ImageOpen| + |attrs| + 1 + |content|);
    TaggedDirective(attrs, content);
    TaggedFound(attrs, content);
    RenderShape(endpoint, t, d);
    assert Rewrite(endpoint, t, End(d)) == "";
    assert Rewrite(endpoint, t, 0) == "" + Render(endpoint, t, d) + "";
  }

  /** Text without a match is returned unchanged. */
  lemma RewriteUnchanged(endpoint: string, t: string)
    requires forall d :: !IsDirective(t, d)
    ensures Rewrite(endpoint, t, 0) == t
  {
    if FindDirective(t, 0).Some? {
      FindDirectiveSound(t, 0);
    }
  }

  /** In particular text without `<image` is returned unchanged. */
  lemma NoImageTagUnchanged(endpoint: string, t: string)
    requires forall i :: !OccursAt(t, i, ImageOpen)
    ensures Rewrite(endpoint, t, 0) == t
  {
    RewriteUnchanged(endpoint, t);
  }

}

=== FILE: envelope.dfy ===
/** The envelope unwrap of `processAGIMLResponse` (src/middleware/agiml.ts:70-73):
    one (non-global) replacement of
    `/<message>\s*<assistant>(.*?)<\/assistant>\s*<\/message>/s` by its
    capture. With the `s` flag `.` matches every character, so the capture
    may span lines. The regular expression picks the match that starts
    leftmost and, among those, the one with the shortest capture. */
module Envelope {
  import opened Optional
  import opened JsText

  const MessageOpen: string := "<message>"
  const MessageClose: string := "</message>"
  const AssistantOpen: string := "<assistant>"
  const AssistantClose: string := "</assistant>"

  /** A match: `<message>` at `start`, the capture `t[open..close]`, the
      match ending at `end`. */
  datatype Match = Match(start: nat, open: nat, close: nat, end: nat)

  /** `</assistant>` at `k`, then whitespace, then `</message>` ending at `e`. */
  predicate IsTail(t: string, k: nat, e: nat) {
    && OccursAt(t, k, AssistantClose)
    && k + |AssistantClose| + |MessageClose| <= e
    && AllWhitespace(t, k + |AssistantClose|, e - |MessageClose|)
    && OccursAt(t, e - |MessageClose|, MessageClose)
  }

  /** `<message>` at `s`, then whitespace, then `<assistant>` ending at `o`. */
  predicate IsHead(t: string, s: nat, o: nat) {
    && OccursAt(t, s, MessageOpen)
    && s + |MessageOpen| + |AssistantOpen| <= o
    && AllWhitespace(t, s + |MessageOpen|, o - |AssistantOpen|)
    && OccursAt(t, o - |AssistantOpen|, AssistantOpen)
  }

  /** `m` is a match of the pattern, with any capture the pattern allows. */
  predicate IsMatch(t: string, m: Match) {
    IsHead(t, m.start, m.open) && m.open <= m.close && IsTail(t, m.close, m.end)
  }

  /** The end of the tail that starts at `k`, if one does. */
  function TailAt(t: string, k: nat): Option<nat> {
    if !OccursAt(t, k, AssistantClose) then None
    else
      var w := SkipWhitespace(t, k + |AssistantClose|);
      if OccursAt(t, w, MessageClose) then Some(w + |MessageClose|) else None
  }

  lemma TailAtSound(t: string, k: nat)
    requires TailAt(t, k).Some?
    ensures IsTail(t, k, TailAt(t, k).value)
  {
  }

  lemma TailAtComplete(t: string, k: nat, e: nat)
    requires IsTail(t, k, e)
    ensures TailAt(t, k) == Some(e)
  {
    assert t[e - |MessageClose|] == '<';
    SkipWhitespaceExact(t, k + |AssistantClose|, e - |MessageClose|);
  }

  /** The lazy `(.*?)`: the first `k` from which a tail follows. */
  function CloseFrom(t: string, k: nat): Option<(nat, nat)>
    decreases |t| - k
  {
    if k >= |t| then None
    else if TailAt(t, k).Some? then Some((k, TailAt(t, k).value))
    else CloseFrom(t, k + 1)
  }

  /** The capture ends, at or after `k`, where a tail follows. */
  lemma {:induction false} CloseFromSound(t: string, k: nat)
    requires CloseFrom(t, k).Some?
    ensures k <= CloseFrom(t, k).value.0
    ensures IsTail(t, CloseFrom(t, k).value.0, CloseFrom(t, k).value.1)
    decreases |t| - k
  {
    if TailAt(t, k).None? {
      CloseFromSound(t, k + 1);
    } else {
      TailAtSound(t, k);
    }
  }

  lemma {:induction false} CloseFromShortest(t: string, k: nat, c: nat, e: nat)
    requires IsTail(t, c, e) && k <= c
    ensures CloseFrom(t, k).Some? && CloseFrom(t, k).value.0 <= c
    decreases |t| - k
  {
    TailAtComplete(t, c, e);
    if TailAt(t, k).None? {
      CloseFromShortest(t, k + 1, c, e);
    }
  }

  /** The match the pattern makes when it starts at `i`: the greedy `\s*`
      runs up to `<assistant>`, and the capture is the shortest one. */
  function MatchAt(t: string, i: nat): Option<Match> {
    if !OccursAt(t, i, MessageOpen) then None
    else
      var w := SkipWhitespace(t, i + |MessageOpen|);
      if !OccursAt(t, w, AssistantOpen) then None
      else
        match CloseFrom(t, w + |AssistantOpen|)
        case None => None
        case Some((k, e)) => Some(Match(i, w + |AssistantOpen|, k, e))
  }

  /** The scanner returns only real matches, at the start it was given. */
  lemma MatchAtSound(t: string, i: nat)
    requires MatchAt(t, i).Some?
    ensures IsMatch(t, MatchAt(t, i).value) && MatchAt(t, i).value.start == i
  {
    assert OccursAt(t, i, MessageOpen);
    var w := SkipWhitespace(t, i + |MessageOpen|);
    assert OccursAt(t, w, AssistantOpen);
    var c := CloseFrom(t, w + |AssistantOpen|).value;
    CloseFromSound(t, w + |AssistantOpen|);
    MatchAtSteps(t, i, w, c.0, c.1);
    assert IsHead(t, i, w + |AssistantOpen|);
  }

  /** Where a match starts fixes where its capture starts. */
  lemma OpenDetermined(t: string, m: Match)
    requires IsMatch(t, m)
    ensures SkipWhitespace(t, m.start + |MessageOpen|) == m.open - |AssistantOpen|
  {
    assert t[m.open - |AssistantOpen|] == '<';
    SkipWhitespaceExact(t, m.start + |MessageOpen|, m.open - |AssistantOpen|);
  }

  /** `MatchAt` once its three steps have succeeded. */
  lemma MatchAtSteps(t: string, i: nat, w: nat, k: nat, e: nat)
    requires OccursAt(t, i, MessageOpen)
    requires SkipWhitespace(t, i + |MessageOpen|) == w
    requires OccursAt(t, w, AssistantOpen)
    requires CloseFrom(t, w + |AssistantOpen|) == Some((k, e))
    ensures MatchAt(t, i) == Some(Match(i, w + |AssistantOpen|, k, e))
  {
  }

  /** No match starting at `m.start` has a shorter capture than the one
      `MatchAt` picks. */
  lemma MatchAtShortest(t: string, m: Match)
    requires IsMatch(t, m)
    ensures MatchAt(t, m.start).Some? && MatchAt(t, m.start).value.close <= m.close
  {
    var w := m.open - |AssistantOpen|;
    assert OccursAt(t, m.start, MessageOpen) && OccursAt(t, w, AssistantOpen);
    OpenDetermined(t, m);
    CloseFromShortest(t, m.open, m.close, m.end);
    var c := CloseFrom(t, m.open).value;
    MatchAtSteps(t, m.start, w, c.0, c.1);
  }


  /** A match is fixed by its start and the end of its capture. */
  lemma MatchDetermined(t: string, m1: Match, m2: Match)
    requires IsMatch(t, m1) && IsMatch(t, m2)
    requires m1.start == m2.start && m1.close == m2.close
    ensures m1 == m2
  {
    OpenDetermined(t, m1);
    OpenDetermined(t, m2);
    TailAtComplete(t, m1.close, m1.end);
    TailAtComplete(t, m2.close, m2.end);
  }

  /** The search from `p`. */
  function FindMatch(t: string, p: nat): (r: Option<Match>)
    ensures r.Some? ==> p <= r.value.start <= r.value.open <= r.value.close <= r.value.end <= |t|
    decreases |t| - p
  {
    if p >= |t| then None
    else if MatchAt(t, p).Some? then MatchAtSound(t, p); MatchAt(t, p)
    else FindMatch(t, p + 1)
  }

  /** The search returns only real matches. */
  lemma {:induction false} FindMatchSound(t: string, p: nat)
    requires FindMatch(t, p).Some?
    ensures IsMatch(t, FindMatch(t, p).value)
    decreases |t| - p
  {
    if p < |t| && MatchAt(t, p).Some? {
      MatchAtSound(t, p);
    } else {
      FindMatchSound(t, p + 1);
    }
  }

  /** The search picks the leftmost start and, at that start, the shortest
      capture: every other match starts later or captures more. */
  lemma {:induction false} FindMatchPriority(t: string, p: nat, m: Match)
    requires IsMatch(t, m) && p <= m.start
    ensures FindMatch(t, p).Some?
    ensures FindMatch(t, p).value.start <= m.start
    ensures FindMatch(t, p).value.start == m.start ==> FindMatch(t, p).value.close <= m.close
    decreases |t| - p
  {
    MatchAtShortest(t, m);
    if MatchAt(t, p).Some? {
      assert FindMatch(t, p) == MatchAt(t, p);
    } else {
      assert p < m.start;
      FindMatchPriority(t, p + 1, m);
      assert FindMatch(t, p) == FindMatch(t, p + 1);
    }
  }

  /** `response.replace(/<message>\s*<assistant>(.*?)<\/assistant>\s*<\/message>/s, '$1')`. */
  function Unwrap(t: string): (r: string)
    ensures |r| <= |t|
  {
    match FindMatch(t, 0)
    case None => t
    case Some(m) => t[..m.start] + t[m.open..m.close] + t[m.end..]
  }

  /** Without a match the text passes through unchanged. */
  lemma UnwrapUnchanged(t: string)
    requires forall m :: !IsMatch(t, m)
    ensures Unwrap(t) == t
  {
    if FindMatch(t, 0).Some? {
      FindMatchSound(t, 0);
    }
  }

  /** `x` followed by `</assistant>` holds no `</assistant>` before the one
      appended: the first closing tag after `x` begins is the one after it. */
  predicate NoEarlyClose(x: string) {
    forall k :: 0 <= k < |x| ==> !OccursAt(x + AssistantClose, k, AssistantClose)
  }

  predicate IsWhitespaceText(w: string) {
    AllWhitespace(w, 0, |w|)
  }

  /** `u` in the middle of `a + u + b`. */
  lemma Middle(a: string, u: string, b: string)
    ensures (a + u + b)[|a|..|a| + |u|] == u
  {
  }

  /** The opening of an envelope, with whitespace `w1` between the tags. */
  function Head(w1: string): string {
    MessageOpen + w1 + AssistantOpen
  }

  /** The closing of an envelope, with whitespace `w2` between the tags. */
  function Tail(w2: string): string {
    AssistantClose + (w2 + MessageClose)
  }

  /** An envelope around `x`. */
  function Wrapped(w1: string, x: string, w2: string): string {
    Head(w1) + x + Tail(w2)
  }

  lemma HeadShape(w1: string)
    requires IsWhitespaceText(w1)
    ensures OccursAt(Head(w1), 0, MessageOpen)
    ensures AllWhitespace(Head(w1), |MessageOpen|, |MessageOpen| + |w1|)
    ensures OccursAt(Head(w1), |MessageOpen| + |w1|, AssistantOpen)
  {
    assert OccursAt(MessageOpen, 0, MessageOpen);
    OccursAppend(MessageOpen, w1, 0, MessageOpen);
    OccursAppend(MessageOpen + w1, AssistantOpen, 0, MessageOpen);
    WhitespacePrepend(MessageOpen, w1, 0, |w1|);
    WhitespaceAppend(MessageOpen + w1, AssistantOpen, |MessageOpen|, |MessageOpen| + |w1|);
    assert OccursAt(AssistantOpen, 0, AssistantOpen);
    OccursPrepend(MessageOpen + w1, AssistantOpen, 0, AssistantOpen);
  }

  lemma TailShape(w2: string)
    requires IsWhitespaceText(w2)
    ensures IsTail(Tail(w2), 0, |Tail(w2)|)
  {
    var w := w2 + MessageClose;
    assert OccursAt(AssistantClose, 0, AssistantClose);
    OccursAppend(AssistantClose, w, 0, AssistantClose);
    WhitespaceAppend(w2, MessageClose, 0, |w2|);
    WhitespacePrepend(AssistantClose, w, 0, |w2|);
    assert OccursAt(MessageClose, 0, MessageClose);
    OccursPrepend(w2, MessageClose, 0, MessageClose);
    OccursPrepend(AssistantClose, w, |w2|, MessageClose);
  }

  /** A tail stays a tail inside a longer text. */
  lemma TailWithin(a: string, b: string, c: string, k: nat, e: nat)
    requires IsTail(b, k, e)
    ensures IsTail(a + b + c, |a| + k, |a| + e)
  {
    OccursPrepend(a, b, k, AssistantClose);
    OccursAppend(a + b, c, |a| + k, AssistantClose);
    WhitespacePrepend(a, b, k + |AssistantClose|, e - |MessageClose|);
    WhitespaceAppend(a + b, c, |a| + k + |AssistantClose|, |a| + e - |MessageClose|);
    OccursPrepend(a, b, e - |MessageClose|, MessageClose);
    OccursAppend(a + b, c, |a| + e - |MessageClose|, MessageClose);
  }

  function FrontMatch(w1: string, x: string, w2: string): (m: Match)
    ensures m.start == 0 && m.open == |Head(w1)| && m.close == |Head(w1)| + |x|
    ensures m.end == |Wrapped(w1, x, w2)|
  {
    var open := |MessageOpen| + |w1| + |AssistantOpen|;
    Match(0, open, open + |x|, open + |x| + |AssistantClose| + |w2| + |MessageClose|)
  }

  /** The opening tags stay in place when text follows them. */
  lemma HeadWithin(w1: string, x: string, tl: string, rest: string)
    requires IsWhitespaceText(w1)
    ensures IsHead(Head(w1) + x + tl + rest, 0, |Head(w1)|)
  {
    var h := Head(w1);
    var hx := h + x;
    HeadShape(w1);
    OccursAppend(h, x, 0, MessageOpen);
    OccursAppend(hx, tl, 0, MessageOpen);
    OccursAppend(hx + tl, rest, 0, MessageOpen);
    WhitespaceAppend(h, x, |MessageOpen|, |MessageOpen| + |w1|);
    WhitespaceAppend(hx, tl, |MessageOpen|, |MessageOpen| + |w1|);
    WhitespaceAppend(hx + tl, rest, |MessageOpen|, |MessageOpen| + |w1|);
    OccursAppend(h, x, |MessageOpen| + |w1|, AssistantOpen);
    OccursAppend(hx, tl, |MessageOpen| + |w1|, AssistantOpen);
    OccursAppend(hx + tl, rest, |MessageOpen| + |w1|, AssistantOpen);
  }

  /** The envelope at the front of a text, as a match. */
  lemma WrappedMatch(w1: string, x: string, w2: string, rest: string)
    requires IsWhitespaceText(w1) && IsWhitespaceText(w2)
    ensures IsMatch(Wrapped(w1, x, w2) + rest, FrontMatch(w1, x, w2))
  {
    var h, tl := Head(w1), Tail(w2);
    HeadWithin(w1, x, tl, rest);
    TailShape(w2);
    TailWithin(h + x, tl, rest, 0, |tl|);
  }

  /** A closing tag inside the capture would be one in `x + </assistant>`. */
  lemma EarlyCloseInside(w1: string, x: string, w2: string, rest: string, k: nat)
    requires k < |x| && OccursAt(Wrapped(w1, x, w2) + rest, |Head(w1)| + k, AssistantClose)
    ensures OccursAt(x + AssistantClose, k, AssistantClose)
  {
    var u := x + AssistantClose;
    var t := Head(w1) + u + (w2 + MessageClose + rest);
    assert Wrapped(w1, x, w2) + rest == t;
    OccursInPrefix(Head(w1) + u, w2 + MessageClose + rest, |Head(w1)| + k, AssistantClose);
    OccursInSuffix(Head(w1), u, k, AssistantClose);
  }

  /** The search settles on the front envelope when its capture closes at
      the first `</assistant>`. */
  lemma FrontFound(w1: string, x: string, w2: string, rest: string)
    requires IsWhitespaceText(w1) && IsWhitespaceText(w2) && NoEarlyClose(x)
    ensures FindMatch(Wrapped(w1, x, w2) + rest, 0) == Some(FrontMatch(w1, x, w2))
  {
    var t := Wrapped(w1, x, w2) + rest;
    var m := FrontMatch(w1, x, w2);
    WrappedMatch(w1, x, w2, rest);
    FindMatchPriority(t, 0, m);
    var f := FindMatch(t, 0).value;
    FindMatchSound(t, 0);
    OpenDetermined(t, m);
    OpenDetermined(t, f);
    if f.close < m.close {
      EarlyCloseInside(w1, x, w2, rest, f.close - m.open);
      assert false;
    }
    MatchDetermined(t, f, m);
  }

  /** The capture and the rest, as slices of the wrapped text. */
  lemma FrontSlices(w1: string, x: string, w2: string, rest: string)
    ensures (Wrapped(w1, x, w2) + rest)[|Head(w1)|..|Head(w1)| + |x|] == x
    ensures (Wrapped(w1, x, w2) + rest)[|Wrapped(w1, x, w2)|..] == rest
  {
    assert Wrapped(w1, x, w2) + rest == Head(w1) + x + (Tail(w2) + rest);
    Middle(Head(w1), x, Tail(w2) + rest);
  }

  /** Unwrapping an envelope at the front of a text whose capture closes at
      the first `</assistant>` leaves the capture followed by the rest. */
  lemma UnwrapFront(w1: string, x: string, w2: string, rest: string)
    requires IsWhitespaceText(w1) && IsWhitespaceText(w2) && NoEarlyClose(x)
    ensures Unwrap(Wrapped(w1, x, w2) + rest) == x + rest
  {
    var t := Wrapped(w1, x, w2) + rest;
    var m := FrontMatch(w1, x, w2);
    FrontFound(w1, x, w2, rest);
    FrontSlices(w1, x, w2, rest);
    UnwrapFound(t, m);
  }

  /** Wherever the envelope the engine picks sits, the text before it and
      the text after it are kept and only the envelope is replaced by its
      capture. The picked envelope is the match with no match starting
      earlier and none at its start closing earlier. */
  lemma UnwrapFirst(t: string, m: Match)
    requires IsMatch(t, m)
    requires forall n :: IsMatch(t, n) ==> m.start <= n.start
    requires forall n :: IsMatch(t, n) && n.start == m.start ==> m.close <= n.close
    ensures Unwrap(t) == t[..m.start] + t[m.open..m.close] + t[m.end..]
  {
    FindMatchPriority(t, 0, m);
    FindMatchSound(t, 0);
    var f := FindMatch(t, 0).value;
    MatchDetermined(t, f, m);
    UnwrapFound(t, m);
  }

  lemma UnwrapFound(t: string, m: Match)
    requires FindMatch(t, 0) == Some(m)
    ensures Unwrap(t) == t[..m.start] + t[m.open..m.close] + t[m.end..]
  {
  }

  /** An envelope with nothing around the assistant element. */
  function Envelop(x: string): string {
    Wrapped("", x, "")
  }

  /** Unwrapping a single envelope gives its content back. */
  lemma UnwrapEnvelop(x: string)
    requires NoEarlyClose(x)
    ensures Unwrap(Envelop(x)) == x
  {
    UnwrapFront("", x, "", "");
    assert Envelop(x) + "" == Envelop(x);
    assert x + "" == x;
  }

  /** Text without `<` cannot hold a closing tag. */
  lemma NoEarlyCloseWithoutTags(x: string)
    requires '<' !in x
    ensures NoEarlyClose(x)
  {
    forall k | 0 <= k < |x|
      ensures !OccursAt(x + AssistantClose, k, AssistantClose)
    {
      assert (x + AssistantClose)[k] == x[k];
    }
  }

  /** Behind an opening envelope, text without `<` still has no early
      closing tag: the opening tags hold no `/`. */
  lemma NoEarlyCloseNested(x: string)
    requires '<' !in x
    ensures NoEarlyClose(Head("") + x)
  {
    var pre := "<message><assistant>";
    assert Head("") == pre;
    var u := pre + x + AssistantClose;
    assert forall i :: 0 <= i < |pre| ==> pre[i] != '/';
    assert pre[|pre| - 1] == '>';
    assert AssistantClose[0] == '<' && AssistantClose[1] == '/';
    forall k | 0 <= k < |pre + x|
      ensures !OccursAt(u, k, AssistantClose)
    {
      if k >= |pre| {
        assert u[k] == x[k - |pre|];
      } else if k + 1 < |pre| {
        assert u[k + 1] == pre[k + 1];
      } else {
        assert u[k] == pre[k];
      }
      if k + |AssistantClose| <= |u| {
        NotOccurs(u, k, AssistantClose);
      }
    }
  }

  /** A pattern whose first two characters are not at `k` does not occur there. */
  lemma NotOccurs(s: string, k: nat, pat: string)
    requires k + |pat| <= |s| && |pat| >= 2
    requires s[k] != pat[0] || s[k + 1] != pat[1]
    ensures !OccursAt(s, k, pat)
  {
    assert s[k..k + |pat|][0] == s[k] && s[k..k + |pat|][1] == s[k + 1];
  }

  /** Nested envelopes lose one layer per unwrap, so unwrapping is not
      idempotent: the lazy capture stops at the inner `</assistant>`. */
  lemma UnwrapNested(x: string)
    requires '<' !in x
    ensures Unwrap(Envelop(Envelop(x))) == Envelop(x)
    ensures Unwrap(Unwrap(Envelop(Envelop(x)))) == x != Envelop(x)
  {
    var inner := Head("") + x;
    NoEarlyCloseNested(x);
    assert Envelop(Envelop(x)) == Wrapped("", inner, "") + Tail("");
    UnwrapFront("", inner, "", Tail(""));
    NoEarlyCloseWithoutTags(x);
    UnwrapEnvelop(x);
  }

}

=== FILE: js_object.dfy ===
/** A plain ECMAScript object with string keys and string values, as far as
    the attribute parser builds one and `Object.entries` reads it back.

    Own properties are listed in the order of section 10.1.11.1
    (OrdinaryOwnPropertyKeys) of ECMA-262: first the keys that are array
    indices, in ascending numeric order, then every other string key in the
    order it was first created. Assigning a string to `__proto__` goes to the
    inherited accessor, which ignores anything that is not an object, so it
    creates no own property. */
module JsObject {
  import opened Optional
  import opened JsText

  type Entry = (string, string)

  /** The largest array index, 2^32 - 2. */
  const MaxArrayIndex: nat := 4294967294

  const ProtoKey: string := "__proto__"

  predicate AllDigits(s: string) {
    forall i :: 0 <= i < |s| ==> IsDigit(s[i])
  }

  /** The number a string of decimal digits spells. */
  function DecimalValue(s: string): (n: nat)
    requires AllDigits(s)
    ensures n < Pow10(|s|)
  {
    if |s| == 0 then 0
    else DecimalValue(s[..|s| - 1]) * 10 + (s[|s| - 1] as int - '0' as int)
  }

  function Pow10(n: nat): (p: nat)
    ensures p >= 1
  {
    if n == 0 then 1 else 10 * Pow10(n - 1)
  }

  /** A canonical decimal numeral: digits only, and no leading zero unless
      the numeral is `0` itself. */
  predicate IsCanonicalNumeral(s: string) {
    |s| > 0 && AllDigits(s) && (s[0] != '0' || |s| == 1)
  }

  /** A key the engine treats as an array index: the canonical numeral of a
      number below 2^32 - 1. */
  predicate IsArrayIndex(k: string) {
    IsCanonicalNumeral(k) && DecimalValue(k) <= MaxArrayIndex
  }

  /** A numeral of more than one digit without a leading zero is at least
      10^(length - 1). */
  lemma {:induction false} NumeralLowerBound(s: string)
    requires IsCanonicalNumeral(s) && |s| > 1
    ensures DecimalValue(s) >= Pow10(|s| - 1)
    decreases |s|
  {
    var p := s[..|s| - 1];
    assert p[0] == s[0];
    if |p| > 1 {
      NumeralLowerBound(p);
    }
  }

  lemma Pow10Monotone(a: nat, b: nat)
    requires a <= b
    ensures Pow10(a) <= Pow10(b)
  {
  }

  /** Two canonical numerals of the same value are the same string. */
  lemma {:induction false} NumeralInjective(a: string, b: string)
    requires IsCanonicalNumeral(a) && IsCanonicalNumeral(b)
    requires DecimalValue(a) == DecimalValue(b)
    ensures a == b
    decreases |a|
  {
    if |a| < |b| {
      NumeralLowerBound(b);
      Pow10Monotone(|a|, |b| - 1);
      assert false;
    } else if |b| < |a| {
      NumeralLowerBound(a);
      Pow10Monotone(|b|, |a| - 1);
      assert false;
    } else if |a| > 1 {
      var pa, pb := a[..|a| - 1], b[..|b| - 1];
      assert pa[0] == a[0] && pb[0] == b[0];
      assert DecimalValue(pa) == DecimalValue(pb);
      NumeralInjective(pa, pb);
      assert a == pa + [a[|a| - 1]] && b == pb + [b[|b| - 1]];
    }
  }

  function IndexValue(k: string): (n: nat)
    requires IsArrayIndex(k)
    ensures n <= MaxArrayIndex
  {
    DecimalValue(k)
  }

  function KeysOf(es: seq<Entry>): (ks: seq<string>)
    ensures |ks| == |es|
    ensures forall i :: 0 <= i < |es| ==> ks[i] == es[i].0
  {
    if |es| == 0 then [] else [es[0].0] + KeysOf(es[1..])
  }

  predicate Distinct(ks: seq<string>) {
    forall i, j :: 0 <= i < j < |ks| ==> ks[i] != ks[j]
  }

  /** Keys that are array indices, in strictly ascending numeric order. */
  predicate Ascending(es: seq<Entry>) {
    && (forall i :: 0 <= i < |es| ==> IsArrayIndex(es[i].0))
    && (forall i, j :: 0 <= i < j < |es| ==> IndexValue(es[i].0) < IndexValue(es[j].0))
  }

  /** The value of the first entry with key `k`. */
  function Lookup(es: seq<Entry>, k: string): (r: Option<string>)
    ensures r.None? <==> k !in KeysOf(es)
    ensures r.Some? ==> (k, r.value) in es
  {
    if |es| == 0 then None
    else if es[0].0 == k then Some(es[0].1)
    else Lookup(es[1..], k)
  }

  /** An object: the array-index entries (ascending) and the other entries
      (in creation order), kept apart as the engine lists them. */
  datatype Object = Object(indexed: seq<Entry>, named: seq<Entry>)

  const Empty: Object := Object([], [])

  predicate Valid(o: Object) {
    && Ascending(o.indexed)
    && (forall i :: 0 <= i < |o.named| ==> !IsArrayIndex(o.named[i].0) && o.named[i].0 != ProtoKey)
    && Distinct(KeysOf(o.named))
  }

  /** `Object.entries(o)`. */
  function Entries(o: Object): (es: seq<Entry>)
    ensures |es| == |o.indexed| + |o.named|
  {
    o.indexed + o.named
  }

  function Keys(o: Object): seq<string> {
    KeysOf(Entries(o))
  }

  /** `o[k]` for an own property; `None` stands for `undefined`. */
  function Get(o: Object, k: string): Option<string> {
    Lookup(Entries(o), k)
  }

  lemma {:induction false} LookupConcat(a: seq<Entry>, b: seq<Entry>, k: string)
    ensures Lookup(a + b, k) == if k in KeysOf(a) then Lookup(a, k) else Lookup(b, k)
  {
    if |a| > 0 {
      assert (a + b)[1..] == a[1..] + b;
      assert KeysOf(a) == [a[0].0] + KeysOf(a[1..]);
      LookupConcat(a[1..], b, k);
    } else {
      assert a + b == b;
    }
  }

  lemma {:induction false} KeysOfConcat(a: seq<Entry>, b: seq<Entry>)
    ensures KeysOf(a + b) == KeysOf(a) + KeysOf(b)
  {
  }

  /** An own-property lookup in a valid object reads only the part of the
      object the key belongs to. */
  lemma GetPart(o: Object, k: string)
    requires Valid(o)
    ensures Get(o, k) == if IsArrayIndex(k) then Lookup(o.indexed, k) else Lookup(o.named, k)
  {
    LookupConcat(o.indexed, o.named, k);
    if IsArrayIndex(k) {
      assert k !in KeysOf(o.named);
    } else {
      assert k !in KeysOf(o.indexed);
    }
  }

  /** Assignment to a key outside the array indices: an existing key keeps
      its place and takes the new value, a new key goes last. */
  function Put(es: seq<Entry>, k: string, v: string): (r: seq<Entry>)
    ensures |r| == if k in KeysOf(es) then |es| else |es| + 1
  {
    if |es| == 0 then [(k, v)]
    else if es[0].0 == k then [(k, v)] + es[1..]
    else
      assert KeysOf(es) == [es[0].0] + KeysOf(es[1..]);
      [es[0]] + Put(es[1..], k, v)
  }

  lemma {:induction false} PutLookup(es: seq<Entry>, k: string, v: string, j: string)
    ensures Lookup(Put(es, k, v), j) == if j == k then Some(v) else Lookup(es, j)
  {
    if |es| > 0 && es[0].0 != k {
      PutLookup(es[1..], k, v, j);
    }
  }

  lemma {:induction false} PutKeys(es: seq<Entry>, k: string, v: string)
    ensures KeysOf(Put(es, k, v)) == if k in KeysOf(es) then KeysOf(es) else KeysOf(es) + [k]
  {
    if |es| > 0 {
      assert KeysOf(es) == [es[0].0] + KeysOf(es[1..]);
      if es[0].0 != k {
        PutKeys(es[1..], k, v);
      }
    }
  }

  lemma {:induction false} PutEntries(es: seq<Entry>, k: string, v: string)
    ensures forall e :: e in Put(es, k, v) ==> e in es || e == (k, v)
  {
    if |es| > 0 && es[0].0 != k {
      PutEntries(es[1..], k, v);
    }
  }

  lemma AscendingCons(e: Entry, rest: seq<Entry>)
    requires IsArrayIndex(e.0) && Ascending(rest)
    requires |rest| > 0 ==> IndexValue(e.0) < IndexValue(rest[0].0)
    ensures Ascending([e] + rest)
  {
    var x := [e] + rest;
    forall i, j | 0 <= i < j < |x|
      ensures IndexValue(x[i].0) < IndexValue(x[j].0)
    {
      if i == 0 && j > 1 {
        assert IndexValue(rest[0].0) < IndexValue(rest[j - 1].0);
      }
    }
  }

  /** Assignment to an array-index key: the entry goes to its numeric place,
      replacing the entry of the same key if there is one. */
  function Insert(es: seq<Entry>, k: string, v: string): (r: seq<Entry>)
    requires IsArrayIndex(k) && Ascending(es)
    ensures Ascending(r)
    ensures |r| > 0 && (r[0] == (k, v) || (|es| > 0 && r[0] == es[0]))
    decreases |es|
  {
    if |es| == 0 then [(k, v)]
    else if IndexValue(es[0].0) == IndexValue(k) then
      AscendingCons((k, v), es[1..]);
      [(k, v)] + es[1..]
    else if IndexValue(k) < IndexValue(es[0].0) then
      AscendingCons((k, v), es);
      [(k, v)] + es
    else
      var rest := Insert(es[1..], k, v);
      AscendingCons(es[0], rest);
      [es[0]] + rest
  }

  lemma {:induction false} InsertLookup(es: seq<Entry>, k: string, v: string, j: string)
    requires IsArrayIndex(k) && Ascending(es)
    ensures Lookup(Insert(es, k, v), j) == if j == k then Some(v) else Lookup(es, j)
    decreases |es|
  {
    if |es| > 0 {
      if IndexValue(es[0].0) == IndexValue(k) {
        NumeralInjective(es[0].0, k);
      } else if IndexValue(k) > IndexValue(es[0].0) {
        InsertLookup(es[1..], k, v, j);
      }
    }
  }

  /** No key of an ascending list is smaller than its first key. */
  lemma AscendingAbove(es: seq<Entry>, k: string)
    requires Ascending(es) && |es| > 0 && IsArrayIndex(k)
    requires IndexValue(k) < IndexValue(es[0].0)
    ensures k !in KeysOf(es)
  {
    forall i | 0 <= i < |es|
      ensures es[i].0 != k
    {
      if i > 0 {
        assert IndexValue(es[0].0) < IndexValue(es[i].0);
      }
    }
  }

  lemma {:induction false} InsertKeys(es: seq<Entry>, k: string, v: string)
    requires IsArrayIndex(k) && Ascending(es)
    ensures k in KeysOf(es) ==> KeysOf(Insert(es, k, v)) == KeysOf(es)
    ensures k !in KeysOf(es) ==> |Insert(es, k, v)| == |es| + 1
    decreases |es|
  {
    if |es| > 0 {
      assert KeysOf(es) == [es[0].0] + KeysOf(es[1..]);
      if IndexValue(es[0].0) == IndexValue(k) {
        NumeralInjective(es[0].0, k);
      } else if IndexValue(k) < IndexValue(es[0].0) {
        AscendingAbove(es, k);
      } else {
        InsertKeys(es[1..], k, v);
      }
    }
  }

  lemma {:induction false} InsertEntries(es: seq<Entry>, k: string, v: string)
    requires IsArrayIndex(k) && Ascending(es)
    ensures forall e :: e in Insert(es, k, v) ==> e in es || e == (k, v)
    decreases |es|
  {
    if |es| > 0 && IndexValue(k) > IndexValue(es[0].0) {
      InsertEntries(es[1..], k, v);
    }
  }

  /** `o[k] = v` with a string value: `__proto__` is left alone, an array
      index goes to its numeric place, any other key is created last or
      overwritten where it stands. */
  function Set(o: Object, k: string, v: string): (r: Object)
    requires Valid(o)
    ensures k == ProtoKey ==> r == o
    ensures IsArrayIndex(k) ==> r.named == o.named
    ensures !IsArrayIndex(k) ==> r.indexed == o.indexed
  {
    if k == ProtoKey then o
    else if IsArrayIndex(k) then Object(Insert(o.indexed, k, v), o.named)
    else Object(o.indexed, Put(o.named, k, v))
  }

  /** Assignment keeps an object valid: the indices stay ascending, the
      other keys distinct and apart from the indices. */
  lemma SetValid(o: Object, k: string, v: string)
    requires Valid(o)
    ensures Valid(Set(o, k, v))
  {
    if k != ProtoKey && !IsArrayIndex(k) {
      PutKeys(o.named, k, v);
      PutNamed(o.named, k, v);
    }
  }

  /** `Put` of a key that is neither an index nor `__proto__` keeps those
      out of the named part. */
  lemma {:induction false} PutNamed(es: seq<Entry>, k: string, v: string)
    requires !IsArrayIndex(k) && k != ProtoKey
    requires forall i :: 0 <= i < |es| ==> !IsArrayIndex(es[i].0) && es[i].0 != ProtoKey
    ensures forall i :: 0 <= i < |Put(es, k, v)| ==>
              !IsArrayIndex(Put(es, k, v)[i].0) && Put(es, k, v)[i].0 != ProtoKey
  {
    if |es| > 0 && es[0].0 != k {
      PutNamed(es[1..], k, v);
    }
  }

  /** After `o[k] = v` the key reads back `v` (unless it is `__proto__`) and
      every other key reads as before. */
  lemma SetGet(o: Object, k: string, v: string, j: string)
    requires Valid(o)
    ensures Get(Set(o, k, v), j) == if j == k && k != ProtoKey then Some(v) else Get(o, j)
  {
    var r := Set(o, k, v);
    SetValid(o, k, v);
    GetPart(o, j);
    GetPart(r, j);
    if k != ProtoKey {
      if IsArrayIndex(k) {
        InsertLookup(o.indexed, k, v, j);
      } else {
        PutLookup(o.named, k, v, j);
      }
    }
  }

  /** Overwriting keeps the key where it was; a new key that is not an array
      index is listed last. */
  lemma SetKeys(o: Object, k: string, v: string)
    requires Valid(o)
    ensures k in Keys(o) ==> Keys(Set(o, k, v)) == Keys(o)
    ensures k !in Keys(o) && k != ProtoKey && !IsArrayIndex(k) ==> Keys(Set(o, k, v)) == Keys(o) + [k]
  {
    if k != ProtoKey {
      if IsArrayIndex(k) {
        IndexedKeys(o.indexed, o.named, k, v);
      } else {
        NamedKeysSet(o.indexed, o.named, k, v);
      }
    }
  }

  /** An index key is found among the indices only. */
  lemma IndexedKeys(a: seq<Entry>, b: seq<Entry>, k: string, v: string)
    requires IsArrayIndex(k) && Ascending(a)
    requires forall i :: 0 <= i < |b| ==> !IsArrayIndex(b[i].0)
    ensures k in KeysOf(a + b) ==> KeysOf(Insert(a, k, v) + b) == KeysOf(a + b)
  {
    KeysOfConcat(a, b);
    KeysOfConcat(Insert(a, k, v), b);
    InsertKeys(a, k, v);
    assert k !in KeysOf(b);
  }

  /** Any other key is found among the named keys only. */
  lemma NamedKeysSet(a: seq<Entry>, b: seq<Entry>, k: string, v: string)
    requires !IsArrayIndex(k)
    requires forall i :: 0 <= i < |a| ==> IsArrayIndex(a[i].0)
    ensures KeysOf(a + Put(b, k, v)) == if k in KeysOf(a + b) then KeysOf(a + b) else KeysOf(a + b) + [k]
  {
    var ka, kb := KeysOf(a), KeysOf(b);
    KeysOfConcat(a, b);
    KeysOfConcat(a, Put(b, k, v));
    PutKeys(b, k, v);
    NotAmongIndices(a, k);
    assert k in KeysOf(a + b) <==> k in kb;
    if k !in kb {
      ConcatAssoc(ka, kb, [k]);
    }
  }

  /** A key that is not an array index is not among keys that all are. */
  lemma NotAmongIndices(a: seq<Entry>, k: string)
    requires !IsArrayIndex(k)
    requires forall i :: 0 <= i < |a| ==> IsArrayIndex(a[i].0)
    ensures k !in KeysOf(a)
  {
    var ks := KeysOf(a);
    forall i | 0 <= i < |ks|
      ensures ks[i] != k
    {
      assert IsArrayIndex(a[i].0);
    }
  }

  /** Assignment invents no entry besides `(k, v)`. */
  lemma SetEntries(o: Object, k: string, v: string)
    requires Valid(o)
    ensures forall e :: e in Entries(Set(o, k, v)) ==> e in Entries(o) || e == (k, v)
  {
    if k != ProtoKey {
      if IsArrayIndex(k) {
        InsertEntries(o.indexed, k, v);
      } else {
        PutEntries(o.named, k, v);
      }
    }
  }

}

=== FILE: js_text.dfy ===
/** The pieces of ECMAScript string handling the AGIML middleware leans on:
    the character classes of its regular expressions (`\s`, `\w`, what `.`
    refuses without the `s` flag), `String.prototype.trim`,
    `String.prototype.split` with a one-character separator and
    `Array.prototype.join`. Characters are Unicode scalar values. */
module JsText {

  /** ECMAScript LineTerminator: LF, CR, LINE SEPARATOR, PARAGRAPH SEPARATOR.
      These are the characters `.` does not match without the `s` flag. */
  predicate IsLineTerminator(c: char) {
    c == '\n' || c == '\r' || c == '\U{2028}' || c == '\U{2029}'
  }

  /** ECMAScript WhiteSpace or LineTerminator: the class `\s`, and what
      `trim` removes. */
  predicate IsWhitespace(c: char) {
    || c == '\t' || c == '\U{000B}' || c == '\U{000C}' || c == ' '
    || c == '\U{00A0}' || c == '\U{FEFF}' || c == '\U{1680}'
    || ('\U{2000}' <= c <= '\U{200A}')
    || c == '\U{202F}' || c == '\U{205F}' || c == '\U{3000}'
    || IsLineTerminator(c)
  }

  /** The class `\w` of a regular expression without the `u` or `i` flag. */
  predicate IsWordChar(c: char) {
    ('a' <= c <= 'z') || ('A' <= c <= 'Z') || ('0' <= c <= '9') || c == '_'
  }

  predicate IsDigit(c: char) {
    '0' <= c <= '9'
  }

  /** `pat` occurs in `s` starting at index `i`. */
  predicate OccursAt(s: string, i: int, pat: string) {
    0 <= i && i + |pat| <= |s| && s[i..i + |pat|] == pat
  }

  /** No line terminator in `s[a..b]` (and the range lies inside `s`). */
  predicate SameLine(s: string, a: int, b: int) {
    0 <= a <= b <= |s| && forall y :: a <= y < b ==> !IsLineTerminator(s[y])
  }

  /** Two runs on one line, joined by a character that ends no line. */
  lemma SameLineJoin(s: string, a: int, m: int, b: int)
    requires SameLine(s, a, m) && SameLine(s, m + 1, b)
    requires m < |s| && !IsLineTerminator(s[m])
    ensures SameLine(s, a, b)
  {
  }

  /** A run inside a run on one line is on one line. */
  lemma SameLineInside(s: string, a: int, b: int, a': int, b': int)
    requires SameLine(s, a, b) && a <= a' <= b' <= b
    ensures SameLine(s, a', b')
  {
  }

  /** Only whitespace in `s[a..b]` (and the range lies inside `s`). */
  predicate AllWhitespace(s: string, a: int, b: int) {
    0 <= a <= b <= |s| && forall y :: a <= y < b ==> IsWhitespace(s[y])
  }

  /** End of the run of whitespace that starts at `i`: what a greedy `\s*`
      consumes from there. */
  function SkipWhitespace(s: string, i: nat): (e: nat)
    requires i <= |s|
    ensures AllWhitespace(s, i, e)
    ensures e < |s| ==> !IsWhitespace(s[e])
    decreases |s| - i
  {
    if i < |s| && IsWhitespace(s[i]) then SkipWhitespace(s, i + 1) else i
  }

  /** A run of whitespace followed by a character that is not whitespace is
      exactly what `SkipWhitespace` consumes. */
  lemma SkipWhitespaceExact(s: string, i: nat, e: nat)
    requires AllWhitespace(s, i, e) && e < |s| && !IsWhitespace(s[e])
    ensures SkipWhitespace(s, i) == e
  {
  }

  lemma OccursAppend(a: string, b: string, k: int, pat: string)
    requires OccursAt(a, k, pat)
    ensures OccursAt(a + b, k, pat)
  {
    assert (a + b)[k..k + |pat|] == a[k..k + |pat|];
  }

  lemma OccursPrepend(a: string, b: string, k: int, pat: string)
    requires OccursAt(b, k, pat)
    ensures OccursAt(a + b, |a| + k, pat)
  {
    assert (a + b)[|a| + k..|a| + k + |pat|] == b[k..k + |pat|];
  }

  lemma OccursInPrefix(a: string, b: string, k: int, pat: string)
    requires OccursAt(a + b, k, pat) && k + |pat| <= |a|
    ensures OccursAt(a, k, pat)
  {
    assert (a + b)[k..k + |pat|] == a[k..k + |pat|];
  }

  lemma OccursInSuffix(a: string, b: string, k: int, pat: string)
    requires OccursAt(a + b, |a| + k, pat) && 0 <= k
    ensures OccursAt(b, k, pat)
  {
    assert (a + b)[|a| + k..|a| + k + |pat|] == b[k..k + |pat|];
  }

  /** The other direction of `OccursInSuffix`, for proofs that an
      occurrence is absent. */
  lemma AbsentInSuffix(a: string, b: string, k: int, pat: string)
    requires 0 <= k && !OccursAt(b, k, pat)
    ensures !OccursAt(a + b, |a| + k, pat)
  {
    if |a| + k + |pat| <= |a + b| {
      assert (a + b)[|a| + k..|a| + k + |pat|] == b[k..k + |pat|];
    }
  }

  lemma WhitespaceAppend(a: string, b: string, i: int, j: int)
    requires AllWhitespace(a, i, j)
    ensures AllWhitespace(a + b, i, j)
  {
    assert forall y :: i <= y < j ==> (a + b)[y] == a[y];
  }

  lemma WhitespacePrepend(a: string, b: string, i: int, j: int)
    requires AllWhitespace(b, i, j)
    ensures AllWhitespace(a + b, |a| + i, |a| + j)
  {
    assert forall y :: |a| + i <= y < |a| + j ==> (a + b)[y] == b[y - |a|];
  }

  /** Length of the longest prefix of `s` made of whitespace. */
  function LeadingWhitespace(s: string): (n: nat)
    ensures n <= |s|
    ensures forall i :: 0 <= i < n ==> IsWhitespace(s[i])
    ensures n < |s| ==> !IsWhitespace(s[n])
  {
    if |s| == 0 || !IsWhitespace(s[0]) then 0 else 1 + LeadingWhitespace(s[1..])
  }

  /** Length of the longest suffix of `s` made of whitespace. */
  function TrailingWhitespace(s: string): (n: nat)
    ensures n <= |s|
    ensures forall i :: |s| - n <= i < |s| ==> IsWhitespace(s[i])
    ensures n < |s| ==> !IsWhitespace(s[|s| - n - 1])
  {
    if |s| == 0 || !IsWhitespace(s[|s| - 1]) then 0
    else 1 + TrailingWhitespace(s[..|s| - 1])
  }

  /** The slice `s[b.0..b.1]` that `trim` keeps: everything outside it is
      whitespace, and it neither starts nor ends with whitespace. */
  function TrimBounds(s: string): (b: (nat, nat))
    ensures b.0 <= b.1 <= |s|
    ensures forall i :: 0 <= i < b.0 ==> IsWhitespace(s[i])
    ensures forall i :: b.1 <= i < |s| ==> IsWhitespace(s[i])
    ensures b.0 < b.1 ==> !IsWhitespace(s[b.0]) && !IsWhitespace(s[b.1 - 1])
    ensures b.0 == b.1 ==> b.0 == |s|
  {
    var a := LeadingWhitespace(s);
    var n := TrailingWhitespace(s[a..]);
    assert forall i :: |s| - n <= i < |s| ==> s[i] == s[a..][i - a];
    (a, |s| - n)
  }

  /** `String.prototype.trim`. */
  function Trim(s: string): string {
    s[TrimBounds(s).0..TrimBounds(s).1]
  }

  /** A string without whitespace at either end is its own trim. */
  lemma TrimNoOuterWhitespace(s: string)
    requires |s| == 0 || (!IsWhitespace(s[0]) && !IsWhitespace(s[|s| - 1]))
    ensures Trim(s) == s
  {
    var b := TrimBounds(s);
    if |s| > 0 {
      assert b.0 == 0;
      assert b.1 == |s|;
    }
  }

  /** Index of the first `c` in `s`. */
  function IndexOf(s: string, c: char): (i: nat)
    requires c in s
    ensures i < |s| && s[i] == c && c !in s[..i]
  {
    if s[0] == c then 0 else 1 + IndexOf(s[1..], c)
  }

  /** `s.split(sep)` for a one-character separator: the pieces between
      consecutive separators, at least one piece, none containing `sep`. */
  function Split(s: string, sep: char): (parts: seq<string>)
    ensures |parts| >= 1
    ensures forall i :: 0 <= i < |parts| ==> sep !in parts[i]
    decreases |s|
  {
    if sep !in s then [s]
    else
      var i := IndexOf(s, sep);
      [s[..i]] + Split(s[i + 1..], sep)
  }

  /** `parts.join(sep)`. */
  function Join(parts: seq<string>, sep: string): string {
    if |parts| == 0 then ""
    else if |parts| == 1 then parts[0]
    else parts[0] + sep + Join(parts[1..], sep)
  }

  lemma ConcatAssoc<T>(a: seq<T>, b: seq<T>, c: seq<T>)
    ensures a + b + c == a + (b + c)
  {
  }

  lemma JoinCons(head: string, rest: seq<string>, sep: string)
    requires |rest| >= 1
    ensures Join([head] + rest, sep) == head + sep + Join(rest, sep)
  {
    assert ([head] + rest)[1..] == rest;
  }

  /** Cutting at the first separator. */
  lemma SplitAtFirst(s: string, sep: char)
    requires sep in s
    ensures var i := IndexOf(s, sep);
            Split(s, sep) == [s[..i]] + Split(s[i + 1..], sep)
  {
  }

  lemma CutAround(s: string, i: nat)
    requires i < |s|
    ensures s == s[..i] + [s[i]] + s[i + 1..]
  {
  }

  /** Joining the pieces of a split with its separator restores the string. */
  lemma {:induction false} JoinSplit(s: string, sep: char)
    ensures Join(Split(s, sep), [sep]) == s
    decreases |s|
  {
    if sep in s {
      var i := IndexOf(s, sep);
      var head, tail := s[..i], s[i + 1..];
      JoinSplit(tail, sep);
      SplitAtFirst(s, sep);
      CutAround(s, i);
      JoinCons(head, Split(tail, sep), [sep]);
    }
  }

  /** Splitting a join of separator-free pieces gives the pieces back. */
  lemma {:induction false} SplitJoin(parts: seq<string>, sep: char)
    requires |parts| >= 1
    requires forall i :: 0 <= i < |parts| ==> sep !in parts[i]
    ensures Split(Join(parts, [sep]), sep) == parts
  {
    if |parts| > 1 {
      var tail := Join(parts[1..], [sep]);
      var s := parts[0] + [sep] + tail;
      assert Join(parts, [sep]) == s;
      assert s[|parts[0]|] == sep;
      assert s[..|parts[0]|] == parts[0];
      assert sep in s;
      assert IndexOf(s, sep) == |parts[0]|;
      assert s[|parts[0]| + 1..] == tail;
      SplitJoin(parts[1..], sep);
    }
  }

  /** The first piece of a split is the text before the first separator,
      and the rest is the split of what follows it. */
  lemma SplitFirst(x: string, sep: char, y: string)
    requires sep !in x
    ensures Split(x + [sep] + y, sep) == [x] + Split(y, sep)
  {
    var s := x + [sep] + y;
    assert s[|x|] == sep;
    assert s[..IndexOf(s, sep)] == x;
    assert s[|x| + 1..] == y;
  }

}

=== FILE: markdown.dfy ===
/** `generateMarkdownImage` (src/middleware/agiml.ts:115-134): the image URL
    of the multimedia endpoint with the prompt and the attributes as query
    parameters, and the markdown image that shows it with the decoded prompt
    as alt text and caption. */
module Markdown {
  import opened Optional
  import opened JsText
  import opened Uri
  import opened JsObject
  import opened Prompt

  const TypeKey: string := "type"

  /** The entries that go into the query: all but those whose key is
      exactly `type`. */
  function Kept(es: seq<Entry>): (r: seq<Entry>)
    ensures forall e :: e in r <==> e in es && e.0 != TypeKey
  {
    if |es| == 0 then []
    else
      assert es == [es[0]] + es[1..];
      (if es[0].0 == TypeKey then [] else [es[0]]) + Kept(es[1..])
  }

  /** One query parameter, `encodeURIComponent(key)=encodeURIComponent(value)`. */
  function Param(e: Entry): string {
    EncodeUriComponent(e.0) + "=" + EncodeUriComponent(e.1)
  }

  /** The loop of lines 123-128: `&` and a parameter for every entry whose
      key is not `type`, in entry order. */
  function QueryString(es: seq<Entry>): string {
    if |es| == 0 then ""
    else (if es[0].0 == TypeKey then "" else "&" + Param(es[0])) + QueryString(es[1..])
  }

  /** The URL of line 120 with the query of lines 123-128. */
  function ImageUrl(endpoint: string, prompt: string, attrs: Object): string {
    endpoint + "/image?prompt=" + prompt + QueryString(Entries(attrs))
  }

  /** `generateMarkdownImage`: `None` when `decodeURIComponent` throws. */
  function GenerateMarkdownImage(endpoint: string, prompt: string, attrs: Object): (r: Option<string>)
    ensures r.None? <==> DecodeUriComponent(prompt).None?
  {
    match DecodeUriComponent(prompt)
    case None => None
    case Some(d) =>
      Some("![" + d + "](" + ImageUrl(endpoint, prompt, attrs) + ")\n*" + d + "*")
  }

  /** Reading a query back: `&`-separated `key=value` pairs, each side
      percent-decoded. The inverse of `QueryString`. */
  function ParseQuery(q: string): (r: Option<seq<Entry>>)
  {
    if |q| == 0 then Some([])
    else if q[0] != '&' then None
    else ParseParams(Split(q[1..], '&'))
  }

  function ParseParams(pieces: seq<string>): (r: Option<seq<Entry>>)
    ensures r.Some? ==> |r.value| == |pieces|
  {
    if |pieces| == 0 then Some([])
    else
      match (ParseParam(pieces[0]), ParseParams(pieces[1..]))
      case (Some(e), Some(rest)) => Some([e] + rest)
      case _ => None
  }

  function ParseParam(piece: string): (r: Option<Entry>)
  {
    var kv := Split(piece, '=');
    if |kv| != 2 then None
    else
      match (DecodeUriComponent(kv[0]), DecodeUriComponent(kv[1]))
      case (Some(k), Some(v)) => Some((k, v))
      case _ => None
  }

  /** An encoded text holds neither `&` nor `=`. */
  lemma EncodedPlain(s: string)
    ensures '&' !in EncodeUriComponent(s) && '=' !in EncodeUriComponent(s)
  {
    var e := EncodeUriComponent(s);
    EncodeAlphabet(s);
    assert forall i :: 0 <= i < |e| ==> e[i] != '&' && e[i] != '=';
  }

  lemma ParamSplits(e: Entry)
    ensures '&' !in Param(e)
    ensures Split(Param(e), '=') == [EncodeUriComponent(e.0), EncodeUriComponent(e.1)]
  {
    var k, v := EncodeUriComponent(e.0), EncodeUriComponent(e.1);
    EncodedPlain(e.0);
    EncodedPlain(e.1);
    assert Param(e) == k + ['='] + v;
    SplitFirst(k, '=', v);
  }

  lemma ParamParses(e: Entry)
    ensures '&' !in Param(e)
    ensures ParseParam(Param(e)) == Some(e)
  {
    ParamSplits(e);
    DecodeEncode(e.0);
    DecodeEncode(e.1);
  }

  function Params(es: seq<Entry>): (ps: seq<string>)
    ensures |ps| == |es|
    ensures forall i :: 0 <= i < |es| ==> ps[i] == Param(es[i])
  {
    if |es| == 0 then [] else [Param(es[0])] + Params(es[1..])
  }

  /** The query is `&` followed by the parameters of the kept entries
      joined with `&`, or nothing when no entry is kept. */
  lemma {:induction false} QueryStringJoin(es: seq<Entry>)
    ensures QueryString(es) == if |Kept(es)| == 0 then "" else "&" + Join(Params(Kept(es)), "&")
  {
    if |es| > 0 {
      QueryStringJoin(es[1..]);
      var rest := Kept(es[1..]);
      var tail := QueryString(es[1..]);
      if es[0].0 == TypeKey {
        assert Kept(es) == rest;
        assert QueryString(es) == "" + tail;
      } else {
        var p := Param(es[0]);
        assert Kept(es) == [es[0]] + rest;
        assert QueryString(es) == "&" + p + tail;
        assert Params(Kept(es)) == [p] + Params(rest);
        AmpersandJoin(p, Params(rest));
      }
    }
  }

  /** One more parameter in front of a query. */
  lemma AmpersandJoin(p: string, ps: seq<string>)
    ensures "&" + p + (if |ps| == 0 then "" else "&" + Join(ps, "&")) == "&" + Join([p] + ps, "&")
  {
    if |ps| > 0 {
      JoinCons(p, ps, "&");
      ConcatAssoc("&" + p, "&", Join(ps, "&"));
      ConcatAssoc("&", p + "&", Join(ps, "&"));
      ConcatAssoc("&", p, "&");
    } else {
      assert [p] + ps == [p];
    }
  }

  lemma {:induction false} ParamsParse(es: seq<Entry>)
    ensures forall i :: 0 <= i < |Params(es)| ==> '&' !in Params(es)[i]
    ensures ParseParams(Params(es)) == Some(es)
  {
    if |es| > 0 {
      ParamParses(es[0]);
      ParamsParse(es[1..]);
      assert Params(es)[1..] == Params(es[1..]);
      assert es == [es[0]] + es[1..];
    }
  }

  /** The query of the image URL reads back as exactly the entries whose key
      is not `type`, in entry order, with keys and values intact; so `Type`
      and every other key goes in, and only `type` is left out. */
  lemma QueryRoundTrip(es: seq<Entry>)
    ensures ParseQuery(QueryString(es)) == Some(Kept(es))
  {
    QueryStringJoin(es);
    var kept := Kept(es);
    if |kept| > 0 {
      var ps := Params(kept);
      ParamsParse(kept);
      SplitJoin(ps, '&');
      var q := "&" + Join(ps, "&");
      assert q[1..] == Join(ps, "&");
    }
  }

  /** Markdown for a prompt that went through `processPrompt` never fails,
      and shows the sanitised prompt as alt text and caption. */
  lemma MarkdownOfProcessedPrompt(endpoint: string, content: string, attrs: Object)
    ensures GenerateMarkdownImage(endpoint, ProcessPrompt(content), attrs)
         == Some("![" + Sanitize(content) + "](" + ImageUrl(endpoint, ProcessPrompt(content), attrs)
                 + ")\n*" + Sanitize(content) + "*")
  {
    PromptDecodes(content);
  }

}

=== FILE: middleware.dfy ===
/** The two hooks of `AGIMLMiddleware` (src/middleware/agiml.ts:31-84): the
    request side wraps the user text, injects the AGIML spec into the system
    prompt and tags the metadata; the response side unwraps the assistant
    envelope and rewrites image directives into markdown. */
module Middleware {
  import opened Optional
  import opened JsObject
  import opened Envelope
  import opened Directives

  datatype Role = System | User | Assistant

  datatype Message = Message(role: Role, content: string)

  /** The fields of the middleware context the hooks read or write. */
  datatype Context = Context(
    messages: seq<Message>,
    userMessage: string,
    metadata: Object,
    response: Option<string>)

  const UserOpen: string := "<message><user>"
  const UserClose: string := "</user></message>"
  const FormatKey: string := "format"
  const FormatValue: string := "agiml"
  const SpecSeparator: string := "\n\n"

  /** `messages.findIndex(m => m.role === 'system')`, with `None` for -1. */
  function FirstSystemIndex(ms: seq<Message>): (r: Option<nat>)
    ensures r.None? <==> forall i :: 0 <= i < |ms| ==> ms[i].role != System
    ensures r.Some? ==> r.value < |ms| && ms[r.value].role == System
    ensures r.Some? ==> forall i :: 0 <= i < r.value ==> ms[i].role != System
  {
    if |ms| == 0 then None
    else if ms[0].role == System then Some(0)
    else
      match FirstSystemIndex(ms[1..])
      case None => None
      case Some(i) => Some(i + 1)
  }

  /** The messages after the spec is injected (lines 36-48). */
  function InjectSpec(ms: seq<Message>, spec: string): (r: seq<Message>)
  {
    match FirstSystemIndex(ms)
    case Some(i) => ms[i := Message(System, ms[i].content + SpecSeparator + spec)]
    case None => [Message(System, spec)] + ms
  }

  /** `beforeRequest`; the spec text is the one the constructor loads. The
      first system message gains the spec after a blank line and every other
      message stays; without a system message, one carrying the spec goes in
      front. Either way the first system message afterwards ends with the
      spec. */
  function BeforeRequest(ctx: Context, spec: string): (r: Context)
    requires Valid(ctx.metadata)
    ensures r.userMessage == UserOpen + ctx.userMessage + UserClose
    ensures r.response == ctx.response
    ensures Valid(r.metadata)
    ensures FirstSystemIndex(ctx.messages).None? ==> r.messages == [Message(System, spec)] + ctx.messages
    ensures FirstSystemIndex(ctx.messages).Some? ==>
              var i := FirstSystemIndex(ctx.messages).value;
              && |r.messages| == |ctx.messages|
              && r.messages[i] == Message(System, ctx.messages[i].content + "\n\n" + spec)
              && forall j :: 0 <= j < |ctx.messages| && j != i ==> r.messages[j] == ctx.messages[j]
    ensures FirstSystemIndex(r.messages).Some?
    ensures var c := r.messages[FirstSystemIndex(r.messages).value].content;
            |spec| <= |c| && c[|c| - |spec|..] == spec
  {
    SetValid(ctx.metadata, FormatKey, FormatValue);
    SystemMessageCarriesSpec(ctx.messages, spec);
    ctx.(messages := InjectSpec(ctx.messages, spec),
         userMessage := UserOpen + ctx.userMessage + UserClose,
         metadata := Set(ctx.metadata, FormatKey, FormatValue))
  }

  /** With a system message, only the first one changes, and only by the
      spec appended after a blank line; count, order, roles and every other
      message, later system messages included, stay as they were. */
  lemma InjectIntoFirstSystem(ms: seq<Message>, spec: string, i: nat)
    requires i < |ms| && ms[i].role == System
    requires forall j :: 0 <= j < i ==> ms[j].role != System
    ensures |InjectSpec(ms, spec)| == |ms|
    ensures InjectSpec(ms, spec)[i] == Message(System, ms[i].content + "\n\n" + spec)
    ensures forall j :: 0 <= j < |ms| && j != i ==> InjectSpec(ms, spec)[j] == ms[j]
    ensures forall j :: 0 <= j < |ms| ==> InjectSpec(ms, spec)[j].role == ms[j].role
  {
    assert FirstSystemIndex(ms) == Some(i);
  }

  /** Without a system message, one carrying the spec goes in front and
      every old message moves one place to the right. */
  lemma InjectNewSystem(ms: seq<Message>, spec: string)
    requires forall j :: 0 <= j < |ms| ==> ms[j].role != System
    ensures |InjectSpec(ms, spec)| == |ms| + 1
    ensures InjectSpec(ms, spec)[0] == Message(System, spec)
    ensures forall j :: 0 <= j < |ms| ==> InjectSpec(ms, spec)[j + 1] == ms[j]
  {
  }

  /** After the request hook the first message is always a system message
      and ends with the spec. */
  lemma SystemMessageCarriesSpec(ms: seq<Message>, spec: string)
    ensures FirstSystemIndex(InjectSpec(ms, spec)).Some?
    ensures var r := InjectSpec(ms, spec);
            var i := FirstSystemIndex(r).value;
            |spec| <= |r[i].content| && r[i].content[|r[i].content| - |spec|..] == spec
  {
    var r := InjectSpec(ms, spec);
    match FirstSystemIndex(ms)
    case None =>
      assert r[0].role == System;
    case Some(i) =>
      InjectIntoFirstSystem(ms, spec, i);
      assert FirstSystemIndex(r).value == i by {
        assert r[i].role == System;
      }
  }

  /** `{ ...metadata, format: 'agiml' }`: `format` reads `agiml` whatever
      it was, and every other key keeps its value. */
  lemma MetadataTagged(ctx: Context, spec: string, k: string)
    requires Valid(ctx.metadata)
    ensures Get(BeforeRequest(ctx, spec).metadata, k)
         == if k == "format" then Some("agiml") else Get(ctx.metadata, k)
  {
    SetGet(ctx.metadata, FormatKey, FormatValue, k);
  }

  /** An existing `format` key keeps its place; otherwise `format` is added
      last. */
  lemma MetadataKeys(ctx: Context, spec: string)
    requires Valid(ctx.metadata)
    ensures "format" in Keys(ctx.metadata) ==> Keys(BeforeRequest(ctx, spec).metadata) == Keys(ctx.metadata)
    ensures "format" !in Keys(ctx.metadata) ==> Keys(BeforeRequest(ctx, spec).metadata) == Keys(ctx.metadata) + ["format"]
  {
    assert !IsArrayIndex(FormatKey) by {
      assert !AllDigits(FormatKey) by { assert FormatKey[0] == 'f'; }
    }
    SetKeys(ctx.metadata, FormatKey, FormatValue);
  }

  /** `processAGIMLResponse`: unwrap the first envelope, then rewrite the
      image directives. */
  function ProcessResponse(endpoint: string, response: string): string {
    Rewrite(endpoint, Unwrap(response), 0)
  }

  /** `afterResponse`: an absent or empty response leaves the context as it
      is; otherwise only the response is replaced by its processed form. */
  function AfterResponse(ctx: Context, endpoint: string): (r: Context)
    ensures ctx.response.None? || ctx.response == Some("") ==> r == ctx
    ensures r.messages == ctx.messages && r.userMessage == ctx.userMessage && r.metadata == ctx.metadata
    ensures r.response.Some? <==> ctx.response.Some?
    ensures ctx.response.Some? && ctx.response.value != "" ==>
              r.response == Some(ProcessResponse(endpoint, ctx.response.value))
  {
    match ctx.response
    case None => ctx
    case Some(s) =>
      if s == "" then ctx else ctx.(response := Some(ProcessResponse(endpoint, s)))
  }

  /** A response with neither an envelope nor a directive passes through. */
  lemma PlainResponseUnchanged(endpoint: string, s: string)
    requires forall m :: !Envelope.IsMatch(s, m)
    requires forall d :: !IsDirective(s, d)
    ensures ProcessResponse(endpoint, s) == s
  {
    UnwrapUnchanged(s);
    RewriteUnchanged(endpoint, s);
  }

  /** An enveloped response is processed as its content alone. */
  lemma EnvelopedResponse(endpoint: string, x: string)
    requires NoEarlyClose(x)
    ensures ProcessResponse(endpoint, Envelop(x)) == Rewrite(endpoint, x, 0)
  {
    UnwrapEnvelop(x);
  }

  /** The processed response is the unwrapped text with the span of each
      directive replaced by its markdown and the text between them kept in
      order. */
  lemma ProcessedResponseShape(endpoint: string, s: string)
    ensures var u := Unwrap(s);
            Chained(u, 0, Matches(u, 0))
            && ProcessResponse(endpoint, s) == Splice(u, 0, Matches(u, 0), Renders(endpoint, u, Matches(u, 0)))
  {
    RewriteSplices(endpoint, Unwrap(s), 0);
  }

}

=== FILE: optional.dfy ===
/** The absent-or-present value used throughout the model: a JavaScript
    `undefined`, a falsy `response`, or an operation that throws. */
module Optional {

  datatype Option<+T> = None | Some(value: T)

}

=== FILE: prompt.dfy ===
/** The prompt sanitiser (`processPrompt`): the inner text of an image
    directive is trimmed, its line feeds become spaces, every character
    outside `[a-zA-Z0-9.,!()[\] ]` is dropped, whitespace runs collapse to one
    space, and the result is split on spaces, each piece passed through
    `encodeURIComponent`, and the pieces joined with `%20`. */
module Prompt {
  import opened Optional
  import opened JsText
  import opened Uri

  /** The characters the sanitiser keeps: the class `[a-zA-Z0-9.,!()[\] ]`. */
  predicate IsPromptChar(c: char) {
    || ('a' <= c <= 'z') || ('A' <= c <= 'Z') || ('0' <= c <= '9')
    || c == '.' || c == ',' || c == '!' || c == '(' || c == ')'
    || c == '[' || c == ']' || c == ' '
  }

  /** `.replace(/\n/g, ' ')`. */
  function NewlinesToSpaces(s: string): (r: string)
    ensures |r| == |s|
  {
    if |s| == 0 then "" else [if s[0] == '\n' then ' ' else s[0]] + NewlinesToSpaces(s[1..])
  }

  /** Only line feeds are touched, position by position. */
  lemma {:induction false} NewlinesPointwise(s: string)
    ensures forall i :: 0 <= i < |s| ==> NewlinesToSpaces(s)[i] == (if s[i] == '\n' then ' ' else s[i])
    decreases |s|
  {
    if |s| > 0 {
      NewlinesPointwise(s[1..]);
      var r := NewlinesToSpaces(s);
      forall i | 1 <= i < |s|
        ensures r[i] == (if s[i] == '\n' then ' ' else s[i])
      {
        assert r[i] == NewlinesToSpaces(s[1..])[i - 1];
        assert s[i] == s[1..][i - 1];
      }
    }
  }

  /** `.replace(/[^a-zA-Z0-9.,!()[\] ]/g, '')`: only prompt characters
      remain, each as often as in the input, and clean text is untouched. */
  function KeepPromptChars(s: string): (r: string)
    ensures forall i :: 0 <= i < |r| ==> IsPromptChar(r[i])
    ensures (forall i :: 0 <= i < |s| ==> IsPromptChar(s[i])) ==> r == s
  {
    if |s| == 0 then ""
    else
      assert s == [s[0]] + s[1..];
      (if IsPromptChar(s[0]) then [s[0]] else []) + KeepPromptChars(s[1..])
  }

  /** The filter keeps every prompt character of the input, as often as it
      occurs, and nothing else. */
  lemma {:induction false} KeepCounts(s: string)
    ensures forall c :: IsPromptChar(c) ==> multiset(KeepPromptChars(s))[c] == multiset(s)[c]
    ensures forall c :: !IsPromptChar(c) ==> c !in KeepPromptChars(s)
    decreases |s|
  {
    if |s| > 0 {
      KeepCounts(s[1..]);
      assert s == [s[0]] + s[1..];
    }
  }

  /** The filter works character by character: a prompt character stays,
      any other goes. */
  lemma KeepOne(c: char)
    ensures KeepPromptChars([c]) == if IsPromptChar(c) then [c] else []
  {
    assert [c][1..] == [];
  }

  /** The filter distributes over concatenation; with `KeepOne` this fixes
      it as the in-order filter, so it never reorders what it keeps. */
  lemma {:induction false} KeepConcat(a: string, b: string)
    ensures KeepPromptChars(a + b) == KeepPromptChars(a) + KeepPromptChars(b)
    decreases |a|
  {
    if |a| == 0 {
      assert a + b == b;
    } else {
      assert (a + b)[0] == a[0] && (a + b)[1..] == a[1..] + b;
      KeepConcat(a[1..], b);
      var h := if IsPromptChar(a[0]) then [a[0]] else [];
      ConcatAssoc(h, KeepPromptChars(a[1..]), KeepPromptChars(b));
    }
  }

  /** Two spaces in a row at index `i`. */
  predicate DoubleSpaceAt(x: string, i: int) {
    0 <= i < |x| - 1 && x[i] == ' ' && x[i + 1] == ' '
  }

  predicate NoDoubleSpace(x: string) {
    forall i :: 0 <= i < |x| ==> !DoubleSpaceAt(x, i)
  }

  lemma NoDoubleSpaceCons(c: char, rest: string)
    requires NoDoubleSpace(rest)
    requires c == ' ' && |rest| > 0 ==> rest[0] != ' '
    ensures NoDoubleSpace([c] + rest)
  {
    var x := [c] + rest;
    forall i | 1 <= i < |x|
      ensures !DoubleSpaceAt(x, i)
    {
      assert !DoubleSpaceAt(rest, i - 1);
    }
  }

  lemma NoDoubleSpaceTail(x: string)
    requires NoDoubleSpace(x) && |x| > 0
    ensures NoDoubleSpace(x[1..])
    ensures |x| > 1 && x[0] == ' ' ==> x[1] != ' '
  {
    forall i | 0 <= i < |x| - 1
      ensures !DoubleSpaceAt(x[1..], i)
    {
      assert !DoubleSpaceAt(x, i + 1);
    }
    assert !DoubleSpaceAt(x, 0);
  }

  /** `.replace(/\s+/g, ' ')`: every maximal run of whitespace becomes a
      single space. The result has no whitespace but spaces, never two
      spaces in a row, and no character that was not in the input; it starts
      with whitespace exactly when the input does. */
  function CollapseWhitespace(s: string): (r: string)
    ensures |r| <= |s|
    ensures forall i :: 0 <= i < |r| ==> r[i] == ' ' || (r[i] in s && !IsWhitespace(r[i]))
    ensures NoDoubleSpace(r)
    ensures |s| == 0 <==> |r| == 0
    ensures |s| > 0 ==> (IsWhitespace(s[0]) <==> r[0] == ' ')
    decreases |s|
  {
    if |s| == 0 then ""
    else if IsWhitespace(s[0]) then
      var n := LeadingWhitespace(s);
      var rest := CollapseWhitespace(s[n..]);
      assert forall c :: c in s[n..] ==> c in s;
      NoDoubleSpaceCons(' ', rest);
      [' '] + rest
    else
      var rest := CollapseWhitespace(s[1..]);
      assert forall c :: c in s[1..] ==> c in s;
      NoDoubleSpaceCons(s[0], rest);
      [s[0]] + rest
  }

  /** A non-whitespace character passes through the collapse. */
  lemma CollapseKeeps(c: char, t: string)
    requires !IsWhitespace(c)
    ensures CollapseWhitespace([c] + t) == [c] + CollapseWhitespace(t)
  {
    assert ([c] + t)[1..] == t;
  }

  /** A whole whitespace run, up to the next non-whitespace character or
      the end, becomes exactly one space. */
  lemma CollapseRun(w: string, t: string)
    requires |w| > 0 && forall i :: 0 <= i < |w| ==> IsWhitespace(w[i])
    requires |t| == 0 || !IsWhitespace(t[0])
    ensures CollapseWhitespace(w + t) == " " + CollapseWhitespace(t)
  {
    LeadingRun(w, t);
    assert (w + t)[|w|..] == t;
  }

  lemma LeadingRun(w: string, t: string)
    requires forall i :: 0 <= i < |w| ==> IsWhitespace(w[i])
    requires |t| == 0 || !IsWhitespace(t[0])
    ensures LeadingWhitespace(w + t) == |w|
  {
    assert |t| > 0 ==> (w + t)[|w|] == t[0];
  }

  lemma LeadingInside(a: string, b: string)
    requires LeadingWhitespace(a) < |a|
    ensures LeadingWhitespace(a + b) == LeadingWhitespace(a)
  {
    var n := LeadingWhitespace(a);
    assert (a + b)[n] == a[n];
  }

  /** The collapse distributes over a concatenation that does not split a
      whitespace run, so no run of the input is merged, split or lost and
      every other character stays in order. */
  lemma {:induction false} CollapseConcat(a: string, b: string)
    requires |a| == 0 || |b| == 0 || !IsWhitespace(a[|a| - 1]) || !IsWhitespace(b[0])
    ensures CollapseWhitespace(a + b) == CollapseWhitespace(a) + CollapseWhitespace(b)
    decreases |a|
  {
    if |a| == 0 {
      assert a + b == b;
    } else if !IsWhitespace(a[0]) {
      var t := a[1..];
      assert a == [a[0]] + t;
      CollapseConcat(t, b);
      ConcatKeepStep(a[0], t, b);
    } else {
      var n := LeadingWhitespace(a);
      var w, t := a[..n], a[n..];
      assert a == w + t;
      if |t| > 0 {
        assert t[|t| - 1] == a[|a| - 1];
        CollapseConcat(t, b);
        ConcatRunStep(w, t, b);
      } else {
        assert w == a && IsWhitespace(a[|a| - 1]);
        ConcatRunLast(w, b);
      }
    }
  }

  /** A non-whitespace character in front keeps `CollapseConcat` true. */
  lemma ConcatKeepStep(h: char, t: string, b: string)
    requires !IsWhitespace(h)
    requires CollapseWhitespace(t + b) == CollapseWhitespace(t) + CollapseWhitespace(b)
    ensures CollapseWhitespace([h] + t + b) == CollapseWhitespace([h] + t) + CollapseWhitespace(b)
  {
    ConcatAssoc([h], t, b);
    CollapseKeeps(h, t);
    CollapseKeeps(h, t + b);
    ConcatAssoc([h], CollapseWhitespace(t), CollapseWhitespace(b));
  }

  /** A whitespace run in front of a text that starts otherwise keeps
      `CollapseConcat` true. */
  lemma ConcatRunStep(w: string, t: string, b: string)
    requires |w| > 0 && forall i :: 0 <= i < |w| ==> IsWhitespace(w[i])
    requires |t| > 0 && !IsWhitespace(t[0])
    requires CollapseWhitespace(t + b) == CollapseWhitespace(t) + CollapseWhitespace(b)
    ensures CollapseWhitespace(w + t + b) == CollapseWhitespace(w + t) + CollapseWhitespace(b)
  {
    ConcatAssoc(w, t, b);
    assert (t + b)[0] == t[0];
    CollapseRun(w, t);
    CollapseRun(w, t + b);
    ConcatAssoc(" ", CollapseWhitespace(t), CollapseWhitespace(b));
  }

  /** A text that is one whitespace run collapses to one space. */
  lemma RunAlone(w: string)
    requires |w| > 0 && forall i :: 0 <= i < |w| ==> IsWhitespace(w[i])
    ensures CollapseWhitespace(w) == " "
  {
    var e: string := [];
    assert w + e == w;
    CollapseRun(w, e);
  }

  /** A text that is one whitespace run, followed by a text that does not
      start with whitespace. */
  lemma ConcatRunLast(w: string, b: string)
    requires |w| > 0 && forall i :: 0 <= i < |w| ==> IsWhitespace(w[i])
    requires |b| == 0 || !IsWhitespace(b[0])
    ensures CollapseWhitespace(w + b) == CollapseWhitespace(w) + CollapseWhitespace(b)
  {
    if |b| == 0 {
      assert w + b == w;
    } else {
      RunAlone(w);
      CollapseRun(w, b);
    }
  }

  /** The text the sanitiser leaves before it encodes: trim, line feeds to
      spaces, filter, collapse. */
  function Sanitize(s: string): string {
    CollapseWhitespace(KeepPromptChars(NewlinesToSpaces(Trim(s))))
  }

  function EncodeEach(parts: seq<string>): (r: seq<string>)
    ensures |r| == |parts|
    ensures forall i :: 0 <= i < |parts| ==> r[i] == EncodeUriComponent(parts[i])
  {
    if |parts| == 0 then [] else [EncodeUriComponent(parts[0])] + EncodeEach(parts[1..])
  }

  /** `processPrompt`. */
  function ProcessPrompt(s: string): string {
    Join(EncodeEach(Split(Sanitize(s), ' ')), "%20")
  }

  /** What the sanitiser leaves is made of prompt characters with no two
      spaces in a row, and is never longer than the input. */
  lemma SanitizeShape(s: string)
    ensures forall i :: 0 <= i < |Sanitize(s)| ==> IsPromptChar(Sanitize(s)[i])
    ensures NoDoubleSpace(Sanitize(s))
    ensures |Sanitize(s)| <= |s|
  {
    var kept := KeepPromptChars(NewlinesToSpaces(Trim(s)));
    var r := CollapseWhitespace(kept);
    forall i | 0 <= i < |r|
      ensures IsPromptChar(r[i])
    {
      if r[i] != ' ' {
        var j :| 0 <= j < |kept| && kept[j] == r[i];
      }
    }
    assert |KeepPromptChars(NewlinesToSpaces(Trim(s)))| <= |s| by {
      KeepShrinks(NewlinesToSpaces(Trim(s)));
    }
  }

  lemma {:induction false} KeepShrinks(s: string)
    ensures |KeepPromptChars(s)| <= |s|
    decreases |s|
  {
    if |s| > 0 {
      KeepShrinks(s[1..]);
    }
  }

  lemma SpaceEncoding()
    ensures EncodeUriComponent(" ") == "%20"
  {
    assert Utf8(' ') == [32];
    assert EncodeChar(' ') == Escape(32);
  }

  lemma EncodeAroundSpace(head: string, rest: string)
    ensures EncodeUriComponent(head + " " + rest)
         == EncodeUriComponent(head) + "%20" + EncodeUriComponent(rest)
  {
    assert head + " " + rest == head + (" " + rest);
    EncodeConcat(head, " " + rest);
    EncodeConcat(" ", rest);
    SpaceEncoding();
  }

  lemma EncodeEachCons(head: string, tail: seq<string>)
    ensures EncodeEach([head] + tail) == [EncodeUriComponent(head)] + EncodeEach(tail)
  {
    assert ([head] + tail)[1..] == tail;
  }

  /** One step of the token-wise encoding: a token in front of a space. */
  lemma TokenStep(head: string, rest: string, pieces: seq<string>)
    requires |pieces| >= 1
    requires Join(EncodeEach(pieces), "%20") == EncodeUriComponent(rest)
    ensures Join(EncodeEach([head] + pieces), "%20") == EncodeUriComponent(head + " " + rest)
  {
    EncodeEachCons(head, pieces);
    JoinCons(EncodeUriComponent(head), EncodeEach(pieces), "%20");
    EncodeAroundSpace(head, rest);
  }

  /** Encoding piece by piece and joining with `%20` is the same as encoding
      the whole text, because a space encodes as `%20`. */
  lemma {:induction false} TokenwiseEncoding(x: string)
    ensures Join(EncodeEach(Split(x, ' ')), "%20") == EncodeUriComponent(x)
    decreases |x|
  {
    if ' ' in x {
      var i := IndexOf(x, ' ');
      var head, rest := x[..i], x[i + 1..];
      TokenwiseEncoding(rest);
      SplitAtFirst(x, ' ');
      CutAround(x, i);
      TokenStep(head, rest, Split(rest, ' '));
    } else {
      assert EncodeEach([x]) == [EncodeUriComponent(x)];
    }
  }

  /** `processPrompt` is `encodeURIComponent` of the sanitised text. */
  lemma ProcessPromptEncodes(s: string)
    ensures ProcessPrompt(s) == EncodeUriComponent(Sanitize(s))
  {
    TokenwiseEncoding(Sanitize(s));
  }

  /** `processPrompt` through a known sanitised text. */
  lemma ProcessPromptVia(s: string, t: string)
    requires Sanitize(s) == t
    ensures ProcessPrompt(s) == EncodeUriComponent(t)
  {
    ProcessPromptEncodes(s);
  }

  lemma LeadingSpaceEncoding(w: string)
    ensures EncodeUriComponent(" " + w) == "%20" + EncodeUriComponent(w)
  {
    EncodeAroundSpace("", w);
    assert "" + " " + w == " " + w;
  }

  /** The key property: `decodeURIComponent` of a processed prompt never
      throws, and gives back the sanitised text. */
  lemma PromptDecodes(s: string)
    ensures DecodeUriComponent(ProcessPrompt(s)) == Some(Sanitize(s))
  {
    ProcessPromptEncodes(s);
    DecodeEncode(Sanitize(s));
  }

  /** The characters a processed prompt can contain. */
  predicate IsPromptOutputChar(c: char) {
    || ('a' <= c <= 'z') || ('A' <= c <= 'Z') || ('0' <= c <= '9')
    || c == '.' || c == '!' || c == '(' || c == ')' || c == '%'
  }

  /** Letters, digits, `.`, `!`, `(`, `)`, and `%` only as the start of
      `%20`, `%2C`, `%5B` or `%5D`. */
  predicate IsPromptEncoding(r: string) {
    && (forall i :: 0 <= i < |r| ==> IsPromptOutputChar(r[i]))
    && (forall i :: 0 <= i < |r| && r[i] == '%' ==>
          i + 3 <= |r| && (r[i + 1..i + 3] == "20" || r[i + 1..i + 3] == "2C"
                           || r[i + 1..i + 3] == "5B" || r[i + 1..i + 3] == "5D"))
  }

  lemma PromptCharEncoding(c: char)
    requires IsPromptChar(c)
    ensures EncodeChar(c) == [c] || EncodeChar(c) == "%20" || EncodeChar(c) == "%2C"
         || EncodeChar(c) == "%5B" || EncodeChar(c) == "%5D"
    ensures EncodeChar(c) == [c] ==> IsPromptOutputChar(c) && c != '%'
  {
    if c == ' ' {
      assert Utf8(c) == [32];
      assert EncodeChar(c) == Escape(32);
    } else if c == ',' {
      assert Utf8(c) == [44];
      assert EncodeChar(c) == Escape(44);
    } else if c == '[' {
      assert Utf8(c) == [91];
      assert EncodeChar(c) == Escape(91);
    } else if c == ']' {
      assert Utf8(c) == [93];
      assert EncodeChar(c) == Escape(93);
    }
  }

  /** One encoded prompt character in front of a prompt encoding is still one. */
  lemma PromptEncodingCons(head: string, tail: string)
    requires || (|head| == 1 && IsPromptOutputChar(head[0]) && head[0] != '%')
             || head == "%20" || head == "%2C" || head == "%5B" || head == "%5D"
    requires IsPromptEncoding(tail)
    ensures IsPromptEncoding(head + tail)
  {
    var r := head + tail;
    forall i | 0 <= i < |r|
      ensures IsPromptOutputChar(r[i])
    {
      if i >= |head| {
        assert r[i] == tail[i - |head|];
      }
    }
    forall i | 0 <= i < |r| && r[i] == '%'
      ensures i + 3 <= |r| && (r[i + 1..i + 3] == "20" || r[i + 1..i + 3] == "2C"
                               || r[i + 1..i + 3] == "5B" || r[i + 1..i + 3] == "5D")
    {
      if i >= |head| {
        assert r[i] == tail[i - |head|];
        assert r[i + 1..i + 3] == tail[i - |head| + 1..i - |head| + 3];
      } else {
        assert r[1..3] == head[1..3];
      }
    }
  }

  lemma {:induction false} EncodePromptText(x: string)
    requires forall i :: 0 <= i < |x| ==> IsPromptChar(x[i])
    ensures IsPromptEncoding(EncodeUriComponent(x))
    decreases |x|
  {
    if |x| > 0 {
      EncodePromptText(x[1..]);
      PromptCharEncoding(x[0]);
      PromptEncodingCons(EncodeChar(x[0]), EncodeUriComponent(x[1..]));
    }
  }

  /** A processed prompt holds only letters, digits, `.`, `!`, `(`, `)` and
      the escapes `%20`, `%2C`, `%5B`, `%5D`: no space, no line terminator,
      nothing that ends a query parameter. */
  lemma ProcessPromptAlphabet(s: string)
    ensures IsPromptEncoding(ProcessPrompt(s))
  {
    SanitizeShape(s);
    ProcessPromptEncodes(s);
    EncodePromptText(Sanitize(s));
  }

  /** Text whose only whitespace is single spaces is left alone by the collapse. */
  lemma {:induction false} CollapseFixed(s: string)
    requires forall i :: 0 <= i < |s| && IsWhitespace(s[i]) ==> s[i] == ' '
    requires NoDoubleSpace(s)
    ensures CollapseWhitespace(s) == s
    decreases |s|
  {
    if |s| > 0 {
      var h, t := s[0], s[1..];
      assert s == [h] + t;
      NoDoubleSpaceTail(s);
      forall i | 0 <= i < |t| && IsWhitespace(t[i])
        ensures t[i] == ' '
      {
        assert t[i] == s[i + 1];
      }
      CollapseFixed(t);
      if IsWhitespace(h) {
        assert |t| > 0 ==> t[0] == s[1];
        CollapseRun([h], t);
      } else {
        CollapseKeeps(h, t);
      }
    }
  }

  /** Text made of unreserved characters is its own encoding. */
  lemma {:induction false} EncodeUnreserved(x: string)
    requires forall i :: 0 <= i < |x| ==> IsUnreserved(x[i])
    ensures EncodeUriComponent(x) == x
    decreases |x|
  {
    if |x| > 0 {
      EncodeUnreserved(x[1..]);
      assert x == [x[0]] + x[1..];
    }
  }

  /** Prompt text the sanitiser has nothing to do to: prompt characters
      only, no space at either end, no two spaces in a row. */
  predicate IsCleanPrompt(x: string) {
    && (forall i :: 0 <= i < |x| ==> IsPromptChar(x[i]))
    && NoDoubleSpace(x)
    && (|x| == 0 || (x[0] != ' ' && x[|x| - 1] != ' '))
  }

  lemma PromptWhitespaceIsSpace(c: char)
    requires IsPromptChar(c) && IsWhitespace(c)
    ensures c == ' '
  {
  }

  lemma CleanCollapseFixed(x: string)
    requires IsCleanPrompt(x)
    ensures KeepPromptChars(x) == x
    ensures CollapseWhitespace(x) == x
  {
    forall i | 0 <= i < |x| && IsWhitespace(x[i])
      ensures x[i] == ' '
    {
      PromptWhitespaceIsSpace(x[i]);
    }
    CollapseFixed(x);
  }

  /** The sanitiser through its four stages. */
  lemma SanitizeSteps(s: string, t: string, u: string, v: string, r: string)
    requires Trim(s) == t && NewlinesToSpaces(t) == u
    requires KeepPromptChars(u) == v && CollapseWhitespace(v) == r
    ensures Sanitize(s) == r
  {
  }

  /** Text of prompt characters has no line feed to replace. */
  lemma NoNewlineFixed(x: string)
    requires forall i :: 0 <= i < |x| ==> IsPromptChar(x[i])
    ensures NewlinesToSpaces(x) == x
  {
    NewlinesPointwise(x);
    assert forall i :: 0 <= i < |x| ==> NewlinesToSpaces(x)[i] == x[i];
  }

  lemma {:induction false} NewlinesConcat(x: string, y: string)
    ensures NewlinesToSpaces(x + y) == NewlinesToSpaces(x) + NewlinesToSpaces(y)
    decreases |x|
  {
    if |x| == 0 {
      assert x + y == y;
    } else {
      var h, t := x[0], x[1..];
      assert x == [h] + t && x + y == [h] + (t + y);
      NewlinesConcat(t, y);
      var c := if h == '\n' then ' ' else h;
      ConcatAssoc([c], NewlinesToSpaces(t), NewlinesToSpaces(y));
    }
  }

  /** A non-empty clean text starts and ends with a non-whitespace character. */
  lemma CleanEnds(x: string)
    requires IsCleanPrompt(x) && |x| > 0
    ensures !IsWhitespace(x[0]) && !IsWhitespace(x[|x| - 1])
  {
    assert IsPromptChar(x[0]) && IsPromptChar(x[|x| - 1]);
  }

  lemma CleanTrimmed(x: string)
    requires IsCleanPrompt(x)
    ensures Trim(x) == x
  {
    if |x| > 0 {
      CleanEnds(x);
    }
    TrimNoOuterWhitespace(x);
  }

  /** Clean text passes the sanitiser unchanged, so its processed prompt is
      just its encoding. */
  lemma CleanPromptFixed(x: string)
    requires IsCleanPrompt(x)
    ensures Sanitize(x) == x
    ensures ProcessPrompt(x) == EncodeUriComponent(x)
  {
    CleanTrimmed(x);
    NoNewlineFixed(x);
    CleanCollapseFixed(x);
    SanitizeSteps(x, x, x, x, x);
    ProcessPromptVia(x, x);
  }

  /** Two clean texts joined by one space make a clean text. */
  lemma CleanJoin(a: string, b: string)
    requires IsCleanPrompt(a) && IsCleanPrompt(b) && |a| > 0 && |b| > 0
    ensures IsCleanPrompt(a + " " + b)
  {
    var x := a + " " + b;
    forall i | 0 <= i < |x|
      ensures !DoubleSpaceAt(x, i)
    {
      if i < |a| - 1 {
        assert !DoubleSpaceAt(a, i);
      } else if i > |a| {
        assert !DoubleSpaceAt(b, i - |a| - 1);
      }
    }
    forall i | 0 <= i < |x|
      ensures IsPromptChar(x[i])
    {
      if i > |a| {
        assert x[i] == b[i - |a| - 1];
      }
    }
  }

  /** Sanitising a string that trim leaves alone, through the string its
      line breaks become. */
  lemma SanitizeUntrimmed(s: string, u: string)
    requires Trim(s) == s && NewlinesToSpaces(s) == u
    ensures Sanitize(s) == CollapseWhitespace(KeepPromptChars(u))
  {
  }

  lemma LineBreakTrimmed(a: string, b: string)
    requires IsCleanPrompt(a) && IsCleanPrompt(b) && |a| > 0 && |b| > 0
    ensures Trim(a + "\n" + b) == a + "\n" + b
  {
    CleanEnds(a);
    CleanEnds(b);
    var s := a + "\n" + b;
    assert s[0] == a[0] && s[|s| - 1] == b[|b| - 1];
    TrimNoOuterWhitespace(s);
  }

  lemma LineBreakFlattened(a: string, b: string)
    requires IsCleanPrompt(a) && IsCleanPrompt(b)
    ensures NewlinesToSpaces(a + "\n" + b) == a + " " + b
  {
    NoNewlineFixed(a);
    NoNewlineFixed(b);
    NewlinesConcat(a + "\n", b);
    NewlinesConcat(a, "\n");
    assert NewlinesToSpaces("\n") == " ";
  }

  lemma LineBreakSanitized(a: string, b: string)
    requires IsCleanPrompt(a) && IsCleanPrompt(b) && |a| > 0 && |b| > 0
    ensures Sanitize(a + "\n" + b) == a + " " + b
  {
    var s, flat := a + "\n" + b, a + " " + b;
    LineBreakTrimmed(a, b);
    LineBreakFlattened(a, b);
    CleanJoin(a, b);
    CleanCollapseFixed(flat);
    SanitizeSteps(s, s, flat, flat, flat);
  }

  /** A line break between two clean lines becomes one `%20`. */
  lemma LineBreakBecomesSpace(a: string, b: string)
    requires IsCleanPrompt(a) && IsCleanPrompt(b) && |a| > 0 && |b| > 0
    ensures Sanitize(a + "\n" + b) == a + " " + b
    ensures ProcessPrompt(a + "\n" + b) == EncodeUriComponent(a) + "%20" + EncodeUriComponent(b)
  {
    LineBreakSanitized(a, b);
    ProcessPromptEncodes(a + "\n" + b);
    EncodeAroundSpace(a, b);
  }

  /** A clean text behind one space: the filter and the collapse keep it. */
  lemma LeadingSpaceKept(w: string)
    requires IsCleanPrompt(w) && |w| > 0
    ensures KeepPromptChars(" " + w) == " " + w
    ensures CollapseWhitespace(" " + w) == " " + w
  {
    var rest := " " + w;
    forall i | 0 <= i < |rest|
      ensures IsPromptChar(rest[i]) && (IsWhitespace(rest[i]) ==> rest[i] == ' ')
    {
      if i > 0 {
        assert rest[i] == w[i - 1];
        if IsWhitespace(rest[i]) {
          PromptWhitespaceIsSpace(rest[i]);
        }
      }
    }
    NoDoubleSpaceCons(' ', w);
    CollapseFixed(rest);
  }

  /** A character the filter drops disappears from the front. */
  lemma DroppedHead(c: char, rest: string)
    requires !IsPromptChar(c)
    ensures KeepPromptChars([c] + rest) == KeepPromptChars(rest)
  {
    assert ([c] + rest)[1..] == rest;
  }

  lemma HeadSpaceTrimmed(c: char, w: string)
    requires !IsWhitespace(c) && IsCleanPrompt(w) && |w| > 0
    ensures Trim([c] + (" " + w)) == [c] + (" " + w)
  {
    var s := [c] + (" " + w);
    CleanEnds(w);
    assert s[|s| - 1] == w[|w| - 1];
    TrimNoOuterWhitespace(s);
  }

  lemma HeadSpaceFlat(c: char, w: string)
    requires !IsWhitespace(c) && IsCleanPrompt(w)
    ensures NewlinesToSpaces([c] + (" " + w)) == [c] + (" " + w)
  {
    NewlinesConcat([c], " " + w);
    NewlinesConcat(" ", w);
    NoNewlineFixed(w);
    assert NewlinesToSpaces([c]) == [c];
  }

  lemma FilterAfterTrimSanitized(c: char, w: string)
    requires !IsPromptChar(c) && !IsWhitespace(c)
    requires IsCleanPrompt(w) && |w| > 0
    ensures Sanitize([c] + " " + w) == " " + w
  {
    var rest := " " + w;
    var s := [c] + rest;
    ConcatAssoc([c], " ", w);
    HeadSpaceTrimmed(c, w);
    HeadSpaceFlat(c, w);
    DroppedHead(c, rest);
    LeadingSpaceKept(w);
    SanitizeSteps(s, s, s, rest, rest);
  }

  /** Filtering comes after trimming: when a leading character is dropped,
      the space behind it survives as a leading `%20`. */
  lemma FilterAfterTrim(c: char, w: string)
    requires !IsPromptChar(c) && !IsWhitespace(c)
    requires IsCleanPrompt(w) && |w| > 0
    ensures Sanitize([c] + " " + w) == " " + w
    ensures ProcessPrompt([c] + " " + w) == "%20" + EncodeUriComponent(w)
  {
    FilterAfterTrimSanitized(c, w);
    ProcessPromptVia([c] + " " + w, " " + w);
    LeadingSpaceEncoding(w);
  }

}

=== FILE: uri.dfy ===
/** ECMAScript `encodeURIComponent` and `decodeURIComponent` (section 19.2.6
    of ECMA-262): characters outside the unreserved set are written as the
    `%XY` escapes of their UTF-8 octets, and decoding undoes that, throwing
    URIError (here: None) on a malformed escape or an invalid UTF-8 sequence. */
module Uri {
  import opened Optional
  import opened JsText

  type Byte = b: nat | b < 256

  /** The characters `encodeURIComponent` leaves as they are. */
  predicate IsUnreserved(c: char) {
    || ('a' <= c <= 'z') || ('A' <= c <= 'Z') || ('0' <= c <= '9')
    || c == '-' || c == '_' || c == '.' || c == '!' || c == '~'
    || c == '*' || c == '\'' || c == '(' || c == ')'
  }

  const HexDigits: string := "0123456789ABCDEF"

  /** The escape `%XY` of one octet, with upper-case hexadecimal digits. */
  function Escape(b: Byte): (e: string)
    ensures |e| == 3 && e[0] == '%'
  {
    ['%', HexDigits[b / 16], HexDigits[b % 16]]
  }

  function EscapeAll(bs: seq<Byte>): (e: string)
    ensures |e| == 3 * |bs|
  {
    if |bs| == 0 then "" else Escape(bs[0]) + EscapeAll(bs[1..])
  }

  /** Number of octets of the UTF-8 sequence that `b` leads; 0 when `b`
      cannot lead one (a continuation octet, or more than four leading ones). */
  function SequenceLength(b: Byte): nat {
    if b < 0x80 then 1
    else if b < 0xC0 then 0
    else if b < 0xE0 then 2
    else if b < 0xF0 then 3
    else if b < 0xF8 then 4
    else 0
  }

  predicate IsContinuation(b: Byte) {
    0x80 <= b < 0xC0
  }

  /** The UTF-8 encoding of a scalar value. */
  function Utf8(c: char): (bs: seq<Byte>)
    ensures 1 <= |bs| <= 4
    ensures SequenceLength(bs[0]) == |bs|
    ensures forall i :: 1 <= i < |bs| ==> IsContinuation(bs[i])
    ensures |bs| == 1 <==> c as int < 0x80
  {
    var cp := c as int;
    if cp < 0x80 then [cp]
    else if cp < 0x800 then [0xC0 + cp / 64, 0x80 + cp % 64]
    else if cp < 0x10000 then [0xE0 + cp / 4096, 0x80 + cp / 64 % 64, 0x80 + cp % 64]
    else [0xF0 + cp / 262144, 0x80 + cp / 4096 % 64, 0x80 + cp / 64 % 64, 0x80 + cp % 64]
  }

  /** How `encodeURIComponent` writes one character. */
  function EncodeChar(c: char): string {
    if IsUnreserved(c) then [c] else EscapeAll(Utf8(c))
  }

  /** `encodeURIComponent`: it never shrinks the text. */
  function EncodeUriComponent(s: string): (r: string)
    ensures |r| >= |s|
  {
    if |s| == 0 then "" else EncodeChar(s[0]) + EncodeUriComponent(s[1..])
  }

  predicate IsEncodedText(e: string) {
    forall i :: 0 <= i < |e| ==> e[i] == '%' || IsUnreserved(e[i])
  }

  lemma EncodedTextConcat(a: string, b: string)
    requires IsEncodedText(a) && IsEncodedText(b)
    ensures IsEncodedText(a + b)
  {
    forall i | 0 <= i < |a + b|
      ensures (a + b)[i] == '%' || IsUnreserved((a + b)[i])
    {
      if i >= |a| {
        assert (a + b)[i] == b[i - |a|];
      }
    }
  }

  lemma {:induction false} EscapeAllAlphabet(bs: seq<Byte>)
    ensures IsEncodedText(EscapeAll(bs))
    decreases |bs|
  {
    if |bs| > 0 {
      EscapeAllAlphabet(bs[1..]);
      EncodedTextConcat(Escape(bs[0]), EscapeAll(bs[1..]));
    }
  }

  /** The output of `encodeURIComponent` is made of unreserved characters
      and the `%` of escapes only. */
  lemma {:induction false} EncodeAlphabet(s: string)
    ensures IsEncodedText(EncodeUriComponent(s))
    decreases |s|
  {
    if |s| > 0 {
      EncodeAlphabet(s[1..]);
      if !IsUnreserved(s[0]) {
        EscapeAllAlphabet(Utf8(s[0]));
      }
      EncodedTextConcat(EncodeChar(s[0]), EncodeUriComponent(s[1..]));
    }
  }

  function HexValue(c: char): (v: Option<nat>)
    ensures v.Some? ==> v.value < 16
  {
    if '0' <= c <= '9' then Some(c as nat - '0' as nat)
    else if 'A' <= c <= 'F' then Some(c as nat - 'A' as nat + 10)
    else if 'a' <= c <= 'f' then Some(c as nat - 'a' as nat + 10)
    else None
  }

  /** The octet written as `%XY` at index `k` of `s`, if there is one. */
  function OctetAt(s: string, k: nat): (b: Option<Byte>)
    ensures b.Some? ==> k + 3 <= |s| && s[k] == '%'
  {
    if k + 3 <= |s| && s[k] == '%' then
      match (HexValue(s[k + 1]), HexValue(s[k + 2]))
      case (Some(hi), Some(lo)) => Some(16 * hi + lo)
      case _ => None
    else None
  }

  /** The low six bits of the continuation octet written as escape number `j`. */
  function Continuation(s: string, j: nat): (p: Option<nat>)
    ensures p.Some? ==> p.value < 64
  {
    match OctetAt(s, 3 * j)
    case Some(b) => if IsContinuation(b) then Some(b - 0x80) else None
    case None => None
  }

  /** Decodes the one to four escapes at the start of `s` that form one
      UTF-8 sequence: the character and how many input characters it spans.
      None wherever `decodeURIComponent` throws URIError: a truncated or
      non-hexadecimal escape, a lead octet of length 1 or more than 4, a bad
      continuation octet, an overlong form, a surrogate, or a value above
      U+10FFFF. */
  function DecodeEscape(s: string): (r: Option<(char, nat)>)
    ensures r.Some? ==> 3 <= r.value.1 <= |s|
  {
    match OctetAt(s, 0)
    case None => None
    case Some(b0) =>
      var n := SequenceLength(b0);
      if n == 0 || 3 * n > |s| then None
      else if n == 1 then Some((b0 as char, 3))
      else if n == 2 then
        match Continuation(s, 1)
        case None => None
        case Some(p1) =>
          var cp := (b0 as int - 0xC0) * 64 + p1;
          if cp < 0x80 then None else Some((cp as char, 6))
      else if n == 3 then
        match (Continuation(s, 1), Continuation(s, 2))
        case (Some(p1), Some(p2)) =>
          var cp := (b0 as int - 0xE0) * 4096 + p1 * 64 + p2;
          if cp < 0x800 || 0xD800 <= cp < 0xE000 then None else Some((cp as char, 9))
        case _ => None
      else
        match (Continuation(s, 1), Continuation(s, 2), Continuation(s, 3))
        case (Some(p1), Some(p2), Some(p3)) =>
          var cp := (b0 as int - 0xF0) * 262144 + p1 * 4096 + p2 * 64 + p3;
          if cp < 0x10000 || cp > 0x10FFFF then None else Some((cp as char, 12))
        case _ => None
  }

  /** `decodeURIComponent`; None where it throws URIError. Text without a
      `%` decodes to itself, and decoding never lengthens the text. */
  function DecodeUriComponent(s: string): (r: Option<string>)
    ensures '%' !in s ==> r == Some(s)
    ensures r.Some? ==> |r.value| <= |s|
    decreases |s|
  {
    if |s| == 0 then Some("")
    else if s[0] != '%' then
      assert s == [s[0]] + s[1..];
      match DecodeUriComponent(s[1..])
      case None => None
      case Some(t) => Some([s[0]] + t)
    else
      match DecodeEscape(s)
      case None => None
      case Some(d) =>
        match DecodeUriComponent(s[d.1..])
        case None => None
        case Some(t) => Some([d.0] + t)
  }

  /** `decodeURIComponent` throws on a `%` not followed by two hexadecimal
      digits. */
  lemma DecodeTruncated(s: string)
    requires |s| > 0 && s[0] == '%'
    requires |s| < 3 || HexValue(s[1]).None? || HexValue(s[2]).None?
    ensures DecodeUriComponent(s) == None
  {
    assert OctetAt(s, 0) == None;
  }

  /** A `%` whose escape sequence is malformed makes the whole decode
      throw. */
  lemma EscapeFails(s: string)
    requires |s| > 0 && s[0] == '%' && DecodeEscape(s).None?
    ensures DecodeUriComponent(s) == None
  {
  }

  /** It throws on an octet that cannot lead a UTF-8 sequence: a
      continuation octet `80`-`BF` or an octet `F8`-`FF`. */
  lemma DecodeBadLead(b: Byte, rest: string)
    requires SequenceLength(b) == 0
    ensures DecodeUriComponent(Escape(b) + rest) == None
  {
    OctetInPrefix(Escape(b), rest, 0, b);
    EscapeFails(Escape(b) + rest);
  }

  /** It throws when a lead octet of a two- to four-octet sequence is
      followed by an escape that is not a continuation octet. */
  lemma DecodeBadContinuation(b0: Byte, b1: Byte, rest: string)
    requires SequenceLength(b0) >= 2 && !IsContinuation(b1)
    ensures DecodeUriComponent(EscapeAll([b0, b1]) + rest) == None
  {
    var bs := [b0, b1];
    var s := EscapeAll(bs) + rest;
    EscapeAllAt(bs, rest, 0);
    EscapeAllAt(bs, rest, 1);
    assert Continuation(s, 1) == None;
    EscapeFails(s);
  }

  /** It throws on the overlong two-octet forms, lead `C0` or `C1`. */
  lemma DecodeOverlongTwo(b0: Byte, b1: Byte, rest: string)
    requires 0xC0 <= b0 <= 0xC1 && IsContinuation(b1)
    ensures DecodeUriComponent(EscapeAll([b0, b1]) + rest) == None
  {
    var bs := [b0, b1];
    var s := EscapeAll(bs) + rest;
    EscapeAllAt(bs, rest, 0);
    ContinuationAt(bs, rest, 1);
    EscapeFails(s);
  }

  /** It throws on the overlong three-octet forms (`E0` then `80`-`9F`) and
      on the surrogates U+D800 to U+DFFF (`ED` then `A0`-`BF`). */
  lemma DecodeThreeRejected(b0: Byte, b1: Byte, b2: Byte, rest: string)
    requires IsContinuation(b1) && IsContinuation(b2)
    requires (b0 == 0xE0 && b1 < 0xA0) || (b0 == 0xED && 0xA0 <= b1)
    ensures DecodeUriComponent(EscapeAll([b0, b1, b2]) + rest) == None
  {
    var bs := [b0, b1, b2];
    var s := EscapeAll(bs) + rest;
    EscapeAllAt(bs, rest, 0);
    ContinuationAt(bs, rest, 1);
    ContinuationAt(bs, rest, 2);
    EscapeFails(s);
  }

  /** It throws on the overlong four-octet forms (`F0` then `80`-`8F`) and
      on every value above U+10FFFF (`F4` then `90`-`BF`, or a lead `F5` to
      `F7`). */
  lemma DecodeFourRejected(b0: Byte, b1: Byte, b2: Byte, b3: Byte, rest: string)
    requires IsContinuation(b1) && IsContinuation(b2) && IsContinuation(b3)
    requires (b0 == 0xF0 && b1 < 0x90) || (b0 == 0xF4 && 0x90 <= b1) || (0xF5 <= b0 <= 0xF7)
    ensures DecodeUriComponent(EscapeAll([b0, b1, b2, b3]) + rest) == None
  {
    var bs := [b0, b1, b2, b3];
    var s := EscapeAll(bs) + rest;
    EscapeAllAt(bs, rest, 0);
    ContinuationAt(bs, rest, 1);
    ContinuationAt(bs, rest, 2);
    ContinuationAt(bs, rest, 3);
    EscapeFails(s);
  }

  /** Decoding distributes over concatenation when the first part decodes:
      the whole decodes exactly when the second part does, to the two
      decodings one after the other. So a malformed escape anywhere after
      a well-formed prefix makes the whole decode throw. */
  lemma {:induction false} DecodeConcat(a: string, b: string)
    requires DecodeUriComponent(a).Some?
    ensures DecodeUriComponent(a + b).None? <==> DecodeUriComponent(b).None?
    ensures DecodeUriComponent(b).Some? ==>
              DecodeUriComponent(a + b) == Some(DecodeUriComponent(a).value + DecodeUriComponent(b).value)
    decreases |a|
  {
    if |a| == 0 {
      assert a + b == b;
      assert DecodeUriComponent(a).value == [];
      if DecodeUriComponent(b).Some? {
        assert [] + DecodeUriComponent(b).value == DecodeUriComponent(b).value;
      }
    } else if a[0] != '%' {
      var h, t := a[0], a[1..];
      assert a == [h] + t;
      DecodePlainStep(h, t);
      DecodeConcat(t, b);
      ConcatAssoc([h], t, b);
      DecodePlainStep(h, t + b);
      if DecodeUriComponent(b).Some? {
        ConcatAssoc([h], DecodeUriComponent(t).value, DecodeUriComponent(b).value);
      }
    } else {
      var d := DecodeEscape(a).value;
      var t := a[d.1..];
      DecodeEscapeAppend(a, b);
      assert (a + b)[d.1..] == t + b;
      DecodeEscapedStep(a, d);
      DecodeEscapedStep(a + b, d);
      DecodeConcat(t, b);
      if DecodeUriComponent(b).Some? {
        ConcatAssoc([d.0], DecodeUriComponent(t).value, DecodeUriComponent(b).value);
      }
    }
  }

  /** One escape sequence at the front of the decode. */
  lemma DecodeEscapedStep(s: string, d: (char, nat))
    requires |s| > 0 && s[0] == '%' && DecodeEscape(s) == Some(d)
    ensures DecodeUriComponent(s) == match DecodeUriComponent(s[d.1..])
                                     case None => None
                                     case Some(v) => Some([d.0] + v)
  {
  }

  /** Text after a decodable escape sequence does not change how it
      decodes. */
  lemma DecodeEscapeAppend(s: string, b: string)
    requires DecodeEscape(s).Some?
    ensures DecodeEscape(s + b) == DecodeEscape(s)
  {
    var n := SequenceLength(OctetAt(s, 0).value);
    OctetAtPrefix(s, b, 0);
    if n >= 2 { OctetAtPrefix(s, b, 3); }
    if n >= 3 { OctetAtPrefix(s, b, 6); }
    if n >= 4 { OctetAtPrefix(s, b, 9); }
  }

  lemma OctetAtPrefix(s: string, b: string, k: nat)
    requires k + 3 <= |s|
    ensures OctetAt(s + b, k) == OctetAt(s, k)
  {
    assert (s + b)[k] == s[k] && (s + b)[k + 1] == s[k + 1] && (s + b)[k + 2] == s[k + 2];
  }

  /** Text without `%` decodes to itself in front of whatever the rest
      decodes to, so a malformed escape after plain text makes the whole
      decode throw. */
  lemma {:induction false} DecodePlainPrefix(a: string, b: string)
    requires '%' !in a
    ensures DecodeUriComponent(a + b).None? <==> DecodeUriComponent(b).None?
    ensures DecodeUriComponent(b).Some? ==> DecodeUriComponent(a + b) == Some(a + DecodeUriComponent(b).value)
    decreases |a|
  {
    if |a| == 0 {
      assert a + b == b;
      if DecodeUriComponent(b).Some? {
        assert a + DecodeUriComponent(b).value == DecodeUriComponent(b).value;
      }
    } else {
      var h, t := a[0], a[1..];
      assert a == [h] + t;
      assert '%' !in t by { assert forall c :: c in t ==> c in a; }
      DecodePlainPrefix(t, b);
      ConcatAssoc([h], t, b);
      DecodePlainStep(h, t + b);
      if DecodeUriComponent(b).Some? {
        var v := DecodeUriComponent(b).value;
        assert DecodeUriComponent(t + b) == Some(t + v);
        assert DecodeUriComponent(a + b) == Some([h] + (t + v));
        ConcatAssoc([h], t, v);
      }
    }
  }

  /** One character other than `%` passes through the decode. */
  lemma DecodePlainStep(c: char, t: string)
    requires c != '%'
    ensures DecodeUriComponent([c] + t) == match DecodeUriComponent(t)
                                            case None => None
                                            case Some(v) => Some([c] + v)
  {
    assert ([c] + t)[0] == c && ([c] + t)[1..] == t;
  }

  lemma HexDigitValue(d: nat)
    requires d < 16
    ensures HexValue(HexDigits[d]) == Some(d)
  {
  }

  /** An escape written with `Escape` reads back as its octet. */
  lemma OctetAtEscape(s: string, k: nat, b: Byte)
    requires k + 3 <= |s| && s[k..k + 3] == Escape(b)
    ensures OctetAt(s, k) == Some(b)
  {
    assert s[k] == '%' && s[k + 1] == HexDigits[b / 16] && s[k + 2] == HexDigits[b % 16];
    HexDigitValue(b / 16);
    HexDigitValue(b % 16);
  }

  /** A slice of the second part of a concatenation. */
  lemma SliceOfPrefix(a: string, t: string, k: nat, n: nat)
    requires k + n <= |a|
    ensures (a + t)[k..k + n] == a[k..k + n]
  {
  }

  lemma SliceOfSuffix(a: string, t: string, k: nat, n: nat)
    requires k + n <= |t|
    ensures (a + t)[|a| + k..|a| + k + n] == t[k..k + n]
  {
  }

  /** Escape number `j` of `EscapeAll(bs)` sits at index `3 * j`. */
  lemma {:induction false} EscapeAllSlice(bs: seq<Byte>, j: nat)
    requires j < |bs|
    ensures EscapeAll(bs)[3 * j..3 * j + 3] == Escape(bs[j])
  {
    if j > 0 {
      EscapeAllSlice(bs[1..], j - 1);
      var t := EscapeAll(bs[1..]);
      var head := Escape(bs[0]);
      assert EscapeAll(bs) == head + t;
      SliceOfSuffix(head, t, 3 * (j - 1), 3);
    }
  }

  lemma EscapeAllAt(bs: seq<Byte>, rest: string, j: nat)
    requires j < |bs|
    ensures OctetAt(EscapeAll(bs) + rest, 3 * j) == Some(bs[j])
  {
    EscapeAllSlice(bs, j);
    OctetInPrefix(EscapeAll(bs), rest, 3 * j, bs[j]);
  }

  /** An escape inside a prefix still reads as its octet. */
  lemma OctetInPrefix(e: string, rest: string, k: nat, b: Byte)
    requires k + 3 <= |e| && e[k..k + 3] == Escape(b)
    ensures OctetAt(e + rest, k) == Some(b)
  {
    SliceOfPrefix(e, rest, k, 3);
    OctetAtEscape(e + rest, k, b);
  }

  /** A continuation octet read through `Continuation`. */
  lemma ContinuationOf(s: string, j: nat, b: Byte)
    requires OctetAt(s, 3 * j) == Some(b) && IsContinuation(b)
    ensures Continuation(s, j) == Some(b - 0x80)
  {
  }

  lemma ContinuationAt(bs: seq<Byte>, rest: string, j: nat)
    requires j < |bs| && IsContinuation(bs[j])
    ensures Continuation(EscapeAll(bs) + rest, j) == Some(bs[j] - 0x80)
  {
    EscapeAllAt(bs, rest, j);
    ContinuationOf(EscapeAll(bs) + rest, j, bs[j]);
  }

  /** The decoding step for a two-octet sequence, on any text. */
  lemma DecodeEscapeTwo(s: string, b0: Byte, p1: nat, c: char)
    requires OctetAt(s, 0) == Some(b0) && SequenceLength(b0) == 2 && 6 <= |s|
    requires Continuation(s, 1) == Some(p1)
    requires (b0 - 0xC0) * 64 + p1 == c as int && 0x80 <= c as int
    ensures DecodeEscape(s) == Some((c, 6))
  {
  }

  /** The decoding step for a three-octet sequence, on any text. */
  lemma DecodeEscapeThree(s: string, b0: Byte, p1: nat, p2: nat, c: char)
    requires OctetAt(s, 0) == Some(b0) && SequenceLength(b0) == 3 && 9 <= |s|
    requires Continuation(s, 1) == Some(p1) && Continuation(s, 2) == Some(p2)
    requires (b0 - 0xE0) * 4096 + p1 * 64 + p2 == c as int && 0x800 <= c as int
    ensures DecodeEscape(s) == Some((c, 9))
  {
  }

  /** The decoding step for a four-octet sequence, on any text. */
  lemma DecodeEscapeFour(s: string, b0: Byte, p1: nat, p2: nat, p3: nat, c: char)
    requires OctetAt(s, 0) == Some(b0) && SequenceLength(b0) == 4 && 12 <= |s|
    requires Continuation(s, 1) == Some(p1) && Continuation(s, 2) == Some(p2)
    requires Continuation(s, 3) == Some(p3)
    requires (b0 - 0xF0) * 262144 + p1 * 4096 + p2 * 64 + p3 == c as int && 0x10000 <= c as int
    ensures DecodeEscape(s) == Some((c, 12))
  {
  }

  /** The octets of a two-octet encoding carry the code point. */
  lemma Utf8Two(c: char)
    requires 0x80 <= c as int < 0x800
    ensures var bs := Utf8(c);
            |bs| == 2 && (bs[0] as int - 0xC0) * 64 + (bs[1] as int - 0x80) == c as int
  {
  }

  lemma Utf8Three(c: char)
    requires 0x800 <= c as int < 0x10000
    ensures var bs := Utf8(c);
            |bs| == 3 && (bs[0] as int - 0xE0) * 4096 + (bs[1] as int - 0x80) * 64 + (bs[2] as int - 0x80) == c as int
  {
    var cp := c as int;
    assert cp / 64 == (cp / 4096) * 64 + cp / 64 % 64;
  }

  lemma Utf8Four(c: char)
    requires 0x10000 <= c as int
    ensures var bs := Utf8(c);
            |bs| == 4
            && (bs[0] as int - 0xF0) * 262144 + (bs[1] as int - 0x80) * 4096 + (bs[2] as int - 0x80) * 64 + (bs[3] as int - 0x80) == c as int
  {
    var cp := c as int;
    assert cp / 4096 == (cp / 262144) * 64 + cp / 4096 % 64;
    assert cp / 64 == (cp / 4096) * 64 + cp / 64 % 64;
  }

  /** The escapes of a two-octet sequence decode to the character it encodes. */
  lemma DecodeOctetsTwo(bs: seq<Byte>, rest: string, c: char)
    requires |bs| == 2 && SequenceLength(bs[0]) == 2 && IsContinuation(bs[1])
    requires (bs[0] as int - 0xC0) * 64 + (bs[1] as int - 0x80) == c as int && 0x80 <= c as int
    ensures DecodeEscape(EscapeAll(bs) + rest) == Some((c, 6))
  {
    EscapeAllAt(bs, rest, 0);
    ContinuationAt(bs, rest, 1);
    DecodeEscapeTwo(EscapeAll(bs) + rest, bs[0], bs[1] - 0x80, c);
  }

  lemma DecodeOctetsThree(bs: seq<Byte>, rest: string, c: char)
    requires |bs| == 3 && SequenceLength(bs[0]) == 3 && IsContinuation(bs[1]) && IsContinuation(bs[2])
    requires (bs[0] as int - 0xE0) * 4096 + (bs[1] as int - 0x80) * 64 + (bs[2] as int - 0x80) == c as int && 0x800 <= c as int
    ensures DecodeEscape(EscapeAll(bs) + rest) == Some((c, 9))
  {
    EscapeAllAt(bs, rest, 0);
    ContinuationAt(bs, rest, 1);
    ContinuationAt(bs, rest, 2);
    DecodeEscapeThree(EscapeAll(bs) + rest, bs[0], bs[1] - 0x80, bs[2] - 0x80, c);
  }

  lemma DecodeOctetsFour(bs: seq<Byte>, rest: string, c: char)
    requires |bs| == 4 && SequenceLength(bs[0]) == 4
    requires IsContinuation(bs[1]) && IsContinuation(bs[2]) && IsContinuation(bs[3])
    requires (bs[0] as int - 0xF0) * 262144 + (bs[1] as int - 0x80) * 4096 + (bs[2] as int - 0x80) * 64 + (bs[3] as int - 0x80) == c as int
    requires 0x10000 <= c as int
    ensures DecodeEscape(EscapeAll(bs) + rest) == Some((c, 12))
  {
    EscapeAllAt(bs, rest, 0);
    ContinuationAt(bs, rest, 1);
    ContinuationAt(bs, rest, 2);
    ContinuationAt(bs, rest, 3);
    DecodeEscapeFour(EscapeAll(bs) + rest, bs[0], bs[1] - 0x80, bs[2] - 0x80, bs[3] - 0x80, c);
  }

  /** The escapes of a reserved character decode back to that character and
      span exactly the escapes. */
  lemma DecodeEncodedChar(c: char, rest: string)
    requires !IsUnreserved(c)
    ensures DecodeEscape(EncodeChar(c) + rest) == Some((c, |EncodeChar(c)|))
  {
    var cp := c as int;
    if cp < 0x80 {
      EscapeAllAt(Utf8(c), rest, 0);
    } else if cp < 0x800 {
      Utf8Two(c);
      DecodeOctetsTwo(Utf8(c), rest, c);
    } else if cp < 0x10000 {
      Utf8Three(c);
      DecodeOctetsThree(Utf8(c), rest, c);
    } else {
      Utf8Four(c);
      DecodeOctetsFour(Utf8(c), rest, c);
    }
  }

  lemma DecodeUnreservedHead(c: char, e: string, d: string)
    requires IsUnreserved(c) && DecodeUriComponent(e) == Some(d)
    ensures DecodeUriComponent(EncodeChar(c) + e) == Some([c] + d)
  {
    var x := [c] + e;
    assert EncodeChar(c) + e == x;
    assert x[0] == c && x[1..] == e;
  }

  lemma DecodeEscapedHead(c: char, e: string, d: string)
    requires !IsUnreserved(c) && DecodeUriComponent(e) == Some(d)
    ensures DecodeUriComponent(EncodeChar(c) + e) == Some([c] + d)
  {
    var head := EncodeChar(c);
    var x := head + e;
    DecodeEncodedChar(c, e);
    EscapeAllSlice(Utf8(c), 0);
    assert x[0] == head[0] == '%';
    assert x[|head|..] == e;
  }

  /** `decodeURIComponent(encodeURIComponent(s)) === s`, for every string. */
  lemma {:induction false} DecodeEncode(s: string)
    ensures DecodeUriComponent(EncodeUriComponent(s)) == Some(s)
    decreases |s|
  {
    if |s| > 0 {
      DecodeEncode(s[1..]);
      var e := EncodeUriComponent(s[1..]);
      assert EncodeUriComponent(s) == EncodeChar(s[0]) + e;
      if IsUnreserved(s[0]) {
        DecodeUnreservedHead(s[0], e, s[1..]);
      } else {
        DecodeEscapedHead(s[0], e, s[1..]);
      }
      assert [s[0]] + s[1..] == s;
    }
  }

  /** Encoding is character by character, so it distributes over `+`. */
  lemma {:induction false} EncodeConcat(a: string, b: string)
    ensures EncodeUriComponent(a + b) == EncodeUriComponent(a) + EncodeUriComponent(b)
    decreases |a|
  {
    if |a| > 0 {
      var c := EncodeChar(a[0]);
      assert (a + b)[0] == a[0] && (a + b)[1..] == a[1..] + b;
      assert EncodeUriComponent(a + b) == c + EncodeUriComponent(a[1..] + b);
      EncodeConcat(a[1..], b);
      ConcatAssoc(c, EncodeUriComponent(a[1..]), EncodeUriComponent(b));
    } else {
      assert a + b == b;
    }
  }

}
